=== FILE: README.md ===
# Digital River payment adapter, modelled in Dafny

This project models the request handlers of the VTEX ↔ Digital River payment
connector:

- the payment-provider protocol handlers of `node/middlewares/index.ts`:
  - `availablePaymentMethods`;
  - the `authorize` state machine: an idempotency lookup by upstream id, a payment-method gate, the platform order read, the checkout link and the order creation;
  - `settle`, `refund` and `cancel`;
- the storefront checkout routes of `node/middlewares/checkout.ts`:
  - create-checkout, with price-tag discount classification, minor-to-major unit conversion, address and name defaults and locale normalisation;
  - update-checkout;
  - the country-code route;
- the tax-calculation webhook of `node/middlewares/tax.ts`. It builds a tax-exclusive checkout from the first item's dock. It then splits the processor's quote into an ordered per-item tax list, with the shipping tax shared evenly and floored to cents.

Every handler is a pure function:
- **Inputs.** The outcome of each external call (processor, order-form, orders and logistics clients) is an input, as a `Result`. The connector's settings values are also inputs.
- **Outputs.** A handler returns its outcome together with the trace of calls it issued, in order. The outcome is a response, or the error it throws, from `Shapes.Error`. The trace lets the contracts state call ordering and short-circuiting: "nothing is created after a failed link", "no checkout is created for a misconfigured dock".
- **JavaScript semantics.** `js_text.dfy` spells out the JavaScript behaviour the handlers rely on:
  - truthiness, `||` and `??`;
  - template rendering of `undefined`;
  - one-character `split` and its inverse `join`;
  - ASCII `toUpperCase`/`toLowerCase`;
  - `includes`;
  - first-occurrence `replace`.

Modules, one per source file plus shared parts:
- `Wrappers`: `Option`, `Result`;
- `JsText`: the JavaScript string semantics;
- `Shapes`: the payload shapes of `node/global.d.ts` the handlers touch, and the error kinds;
- `Payment`: `node/middlewares/index.ts`;
- `Checkout`: `node/middlewares/checkout.ts`;
- `Tax`: `node/middlewares/tax.ts`.

Where the code and the documented behaviour of the adapter differ, the model follows the code:
- The tax webhook never checks that the order-form id is present. A missing id is passed on to the order-form read.
- The tax response has one entry per item of the processor's checkout answer, keyed by its sku id. It carries no correlation metadata.
- In `authorize`, a newly created order whose state is anything other than `payment_pending` or `in_review` is reported as `approved`. This includes states such as `failed` or `blocked`. An order found by the lookup in those states is `denied` instead (`Payment.MappingsAgreeOnlyOnThreeStates`).
- The tax webhook converts the shipping country to a two-letter code and only then looks it up in the locale table. The table is keyed by three-letter codes, so the lookup is modelled as written. `Tax.TaxLocaleDefaultsUnlessThreeLetters` shows that any code whose length is not three gets `en_US`.

## Model

| member | source | states |
|---|---|---|
| Payment.AvailablePaymentMethods | node/middlewares/index.ts:67-80 | The connector advertises exactly one payment method, `DigitalRiver`. |
| Payment.LookupStatus | node/middlewares/index.ts:113-143 | An order found by upstream id maps `accepted` to `approved`, `failed`/`blocked` to `denied`, and every other state to `undefined`. |
| Payment.CreatedStatus | node/middlewares/index.ts:312-329 | A freshly created order is never denied. `approved` or `undefined` are the only answers, and a `failed` or `blocked` order is approved. |
| Payment.MappingsAgreeOnlyOnThreeStates | node/middlewares/index.ts:312-331 | The created-order mapping yields `undefined` exactly for `payment_pending`/`in_review` and `approved` for every other state. The two status mappings agree exactly on `accepted`, `payment_pending` and `in_review`. |
| Payment.OriginatingAccount | node/middlewares/index.ts:158 | With no url the account is "". Otherwise the handler fails exactly when the url has fewer than three `/`-segments. The account is the first `.`-label of the third segment: a dot- and slash-free prefix of it that is the whole segment or is followed by a `.`. |
| Payment.FindCustomApp | node/middlewares/index.ts:182-185 | Finds the first custom app with id `digital-river`, or none when no entry has that id. |
| Payment.CheckoutIdOf | node/middlewares/index.ts:182-189 | The stored checkout id is non-empty exactly when the first `digital-river` custom app has a non-empty checkout id. In that case it is that id. |
| Payment.ResolveCheckout | node/middlewares/index.ts:158-231 | The platform order is read as `orderId-01` under the originating account. A read failure or a missing checkout id is denied with a single call. Otherwise the flow continues with the link and create steps. |
| Payment.LinkAndCreate | node/middlewares/index.ts:233-331 | The upstream id is linked to the checkout before an order is created from it. A failure of either call is denied with its error embedded. On success tid and authorizationId are the new order's id. |
| Payment.Authorize | node/middlewares/index.ts:82-581 | The lookup is always the first call and at most four calls are made. A lookup hit answers with that order and calls nothing else. Other payment methods are denied right after the lookup. The only throw is a malformed url. Past the gate with a well-formed url, the rest of the flow is exactly `Payment.ResolveCheckout`'s. Approval always names the processor order that justifies it. |
| Payment.AuthorizeCallOrder | node/middlewares/index.ts:158-331 | Past the gate, the calls are get-order, link and create, in that order. Each is made only if every earlier one succeeded. A failing call ends the flow with a denial embedding its error. An order is created only from the checkout just linked. Once the stored checkout id is found and linked, the order is always created. |
| Payment.LookupFailureIsSwallowed | node/middlewares/index.ts:146-152 | A failed lookup behaves exactly as a lookup that found nothing. |
| Payment.RepeatedAuthorizeCreatesNoSecondOrder | node/middlewares/index.ts:108-143 | Once the lookup returns the order an earlier call created, repeating authorize reports that order and creates none. |
| Payment.GateAdmitsExactlyAdvertisedMethods | node/middlewares/index.ts:155 | Past a lookup miss, a request proceeds beyond the gate exactly when its method is one of those advertised. |
| Payment.SettlementItems | node/middlewares/index.ts:641-649 | One fulfilment line per order item, in order, each with the item's full quantity. |
| Payment.SettlementRoundTrip | node/middlewares/index.ts:641-649 | Reading the settled lines back from the payload gives exactly the order's items. |
| Payment.CancellationItems | node/middlewares/index.ts:865-873 | One cancellation line per order item, in order, each with the item's full quantity as cancel quantity. |
| Payment.CancellationRoundTrip | node/middlewares/index.ts:865-873 | Reading the cancelled lines back from the payload gives exactly the order's items. |
| Payment.CancellationMirrorsSettlement | node/middlewares/index.ts:865-873 | Cancellation and settlement of an order touch the same lines with the same quantities. |
| Payment.Settle | node/middlewares/index.ts:583-692 | The order is looked up by tid, then fulfilled in full. Each failure becomes a resolver error carrying the call's error. Success echoes paymentId, requestId and value, with the fulfilment id as settleId. |
| Payment.SettleIgnoresAuthorizationId | node/middlewares/index.ts:595-619 | Settlement does not depend on the authorization id at all. |
| Payment.Refund | node/middlewares/index.ts:694-801 | The order is looked up by `tid` or, when that is empty, by authorizationId. The requested value is refunded in the order's currency. Each failure becomes a resolver error. Success echoes the request. |
| Payment.Cancel | node/middlewares/index.ts:803-917 | The order is looked up by `tid` or authorizationId, then cancelled in full. Each failure becomes a resolver error. Success echoes transactionId, paymentId and requestId. |
| Checkout.DiscountCandidateIgnoresCase | node/middlewares/checkout.ts:104-105 | Whether a tag is an item discount depends only on its upper-cased name. |
| Checkout.ShippingDiscountIsNoCandidate | node/middlewares/checkout.ts:104-105 | A mixed-case `Discount@Shipping` tag carries the discount marker but is not an item discount. |
| Checkout.AmountSum | node/middlewares/checkout.ts:104-114 | The summed amount discount is non-negative, and zero when no tag is a non-percentual `DISCOUNT@` tag. |
| Checkout.LastPercent | node/middlewares/checkout.ts:104-114 | The percent discount is the absolute value of the last percentual `DISCOUNT@` tag (not `DISCOUNT@SHIPPING`), or 0 without one. |
| Checkout.ClassifyPriceTags | node/middlewares/checkout.ts:100-114 | The scan over the price tags computes exactly the summed amount and the last percent. |
| Checkout.AmountSumAppend | node/middlewares/checkout.ts:110 | Amount discounts accumulate additively over concatenated tag lists. |
| Checkout.AmountSumOrderIndependent | node/middlewares/checkout.ts:110 | The amount discount does not depend on the order of the tags. |
| Checkout.PerUnitAmount | node/middlewares/checkout.ts:129 | The per-unit amount, scaled back by 100 and by the quantity, gives the summed amount. |
| Checkout.ItemDiscount | node/middlewares/checkout.ts:122-132 | A percent discount wins. Otherwise a non-zero amount becomes amount-off per unit in major units, or an unbounded amount over a zero quantity. No discount exactly when both are zero. |
| Checkout.TranslateItem | node/middlewares/checkout.ts:118-147 | Keeps sku id and quantity. The price scaled by 100 is the minor-unit price. The discount is the one the item's tags determine. |
| Checkout.MinorUnitExample | node/middlewares/checkout.ts:121 | 12345 minor units become 123.45. |
| Checkout.DiscountPrecedenceExample | node/middlewares/checkout.ts:122-132 | An item with both a percent and an amount tag gets only the percent discount. |
| Checkout.ShippingCountry | node/middlewares/checkout.ts:66-68 | Without an address the country is "". Otherwise it is the converted address country, the same conversion the tax webhook applies. |
| Checkout.AddressOf | node/middlewares/checkout.ts:161-185 | The address keeps the given country. A missing or empty street or city becomes `Unknown`. A missing or empty complement, postal code or state becomes "". |
| Checkout.FullName | node/middlewares/checkout.ts:172-176 | The name is non-empty exactly when both names are. It is then the first name, one space and the last name. |
| Checkout.NormaliseLocale | node/middlewares/checkout.ts:159 | The locale, `en_US` by default, has its first `-` replaced by `_`. Nothing else changes. |
| Checkout.ShippingAmount | node/middlewares/checkout.ts:188-192 | The shipping amount scaled by 100 is the `Shipping` totalizer, or 0 without one. |
| Checkout.BuildCheckoutPayload | node/middlewares/checkout.ts:154-193 | Tax-inclusive payload with one translated item per order-form item. Ship-from equals ship-to. Currency defaults to USD. Carries the normalised locale, the browser ip and the scaled shipping amount. A missing email becomes "" while an empty one is kept. A missing or empty phone becomes "". |
| Checkout.DigitalRiverCreateCheckout | node/middlewares/checkout.ts:20-231 | Missing credentials, a missing forwarded-for header and a missing order-form id are rejected before any call. A missing header is a type error. The order form is read first. A failed read propagates its error, and a missing order form is a resolver error. Once the checks pass and the order form and its preferences are read, the checkout is always created, with exactly the payload built from them and the first forwarded ip. Its ids are answered. |
| Checkout.DigitalRiverUpdateCheckout | node/middlewares/checkout.ts:233-298 | Without both ids nothing is called. Otherwise exactly one update is made. Its failure becomes a resolver error and its answer is passed back. |
| Checkout.CountryCode | node/middlewares/checkout.ts:300-312 | Answers exactly for three-character codes, with the conversion of the upper-cased code. Otherwise it is a user-input error. |
| Checkout.CountryCodeIgnoresCase | node/middlewares/checkout.ts:307 | Codes that differ only in letter case get the same answer. |
| Shapes.FindTotal | node/middlewares/tax.ts:63-64 | Finds the value of the first total with the given id, or none when no total has it. |
| JsText.SplitJoin | node/middlewares/checkout.ts:40 | Joining the parts of a split with the separator gives back the string. |
| JsText.SplitFirstPart | node/middlewares/index.ts:158 | The first part of a split is a separator-free prefix. It is either the whole string or followed by the separator. |
| JsText.ReplaceFirst | node/middlewares/checkout.ts:159 | Only the first occurrence of the character changes. |
| Shapes.ConvertedCountry | node/middlewares/tax.ts:36-38 | An absent or empty country gives "" without consulting the converter. Any other country is converted. |
| Tax.TaxLocale | node/middlewares/tax.ts:40-44 | A code the table holds gets that table entry. Any code the table lacks gets `en_US`. |
| Tax.TaxLocaleDefaultsUnlessThreeLetters | node/middlewares/tax.ts:36-44 | Any converted code whose length is not three gets `en_US`. |
| Tax.TranslateTaxItem | node/middlewares/tax.ts:49-61 | Keeps id, quantity and price unconverted. An amount discount is added exactly when the discount price is present and non-zero. |
| Tax.ShipFromAddress | node/middlewares/tax.ts:87-98 | The dock's city, state and postal code are used as given, with the converted country. Line 1 is the number, or "undefined " without one, followed by the street. |
| Tax.TaxCheckoutPayload | node/middlewares/tax.ts:82-118 | The payload exists exactly when client data, the order form, its profile and its shipping address exist; otherwise it is a type error. It is tax-exclusive and built from the request's items. It uses the table locale, the dock's address, the converted shipping country and the unscaled shipping total. |
| Tax.ShippingShare | node/middlewares/tax.ts:161-168 | A whole number of cents, 0 unless the shipping tax is positive. The shares never exceed the tax and fall short of it by less than one cent per item. |
| Tax.QuoteShare | node/middlewares/tax.ts:161-168 | Each item's shipping-tax share is a whole number of cents, 0 unless the tax is positive. The shares never exceed the tax and fall short of it by less than one cent per item. |
| Tax.FlooredSplit | node/middlewares/tax.ts:167 | Flooring the per-item share to cents loses less than one cent per item. |
| Tax.ShippingShareExample | node/middlewares/tax.ts:167 | 1.00 of shipping tax over three items gives each 0.33. |
| Tax.NamesDistinct | node/middlewares/tax.ts:175-211 | Each tax line goes out under its component's name, and distinct components have distinct names. |
| Tax.Components | node/middlewares/tax.ts:170-214 | The listed components are strictly ordered. Each is present and has its quoted value. That every present component from the given position on is listed is proved by `Tax.ComponentsComplete`. |
| Tax.ComponentsComplete | node/middlewares/tax.ts:173-214 | Every component whose amount calls for it is listed, none is skipped. |
| Tax.ItemTaxes | node/middlewares/tax.ts:170-217 | Ordered TAX, SHIPPING TAX, IMPORTER TAX, DUTIES, FEES, FEE TAX. A component is listed exactly when its amount is positive (for the shipping share, non-zero). FEE TAX appears only with FEES. Only TAX carries the rate. |
| Tax.FeeTaxFollowsFees | node/middlewares/tax.ts:202-214 | A FEE TAX line always comes immediately after the FEES line. |
| Tax.TaxBreakdown | node/middlewares/tax.ts:159-222 | One entry per quoted item, in order, keyed by sku id, with that item's tax list. There are no hooks. |
| Tax.ShippingTaxDistribution | node/middlewares/tax.ts:161-186 | Every item lists the shipping share exactly when it is non-zero. Together the shares stay within one cent per item of the quoted shipping tax. |
| Tax.QuoteTax | node/middlewares/tax.ts:120-222 | The checkout is created from the payload. Its ids are stored on the order form. A failure of either call is a resolver error. On success the answer is the breakdown of the quote. |
| Tax.QuoteFromDock | node/middlewares/tax.ts:66-80 | Only the first item's dock is fetched. An incomplete dock address aborts before any checkout is created. A complete one always goes on to `Tax.QuoteTax`, whose calls and outcome follow. |
| Tax.DigitalRiverOrderTaxHandler | node/middlewares/tax.ts:11-223 | An unauthenticated call is refused before any call. The order form is read first. A successful read always goes on to `Tax.QuoteFromDock`, so the first item's dock is fetched second. A misconfigured dock stops before checkout creation. A successful answer is the breakdown of the checkout the handler created. |

## Left out

- Reading the connector's settings (`apps.getAppSettings`) is not modelled. The settings' values are inputs and that call's failure is not modelled.
- Logging is left out, as is the `inbound` handler (index.ts:920-936), which only echoes its request.
- The credit-card authorization code is commented out in the source and not modelled.
- Reading the request body (`json(req)`) and `await next()` are left out. A body that is not an object is not modelled.
- The two-letter country conversion (`country-iso-3-to-2`) is not part of this model. It is a function parameter, since it is an external library.
- Text case mapping covers ASCII letters only. Lengths count characters rather than UTF-16 code units.
- JavaScript `null` and `undefined` are both `None`. Where the source distinguishes them, the model follows `undefined`. A `null` client locale, which would make `replace` throw, is therefore treated as absent.
- Money is exact rational arithmetic, not IEEE doubles, so rounding in `/ 100` and in the floored shipping share is not modelled.
- JavaScript `in` also finds inherited object properties. The locale table is a plain map.
- Tax.QuoteShare: with no quoted items the share is 0. The source would compute a non-finite share that is never used.
- Tax.ShippingShare: requires a positive item count. It is only called with one, since the source divides by the item count.
- The dock answer is always an object. A null dock, which would make the source throw while checking the address, is not modelled.
- Concurrency between two authorize calls for the same payment is left out. Repeat safety is stated for sequential calls only.
- The refund payload's `reason` field is not modelled. Its type requires it, but the source omits it behind a cast.

=== FILE: checkout.dfy ===
/**
 * The storefront checkout routes of node/middlewares/checkout.ts: building a
 * processor checkout from a platform order form (price-tag discount
 * classification, minor-to-major unit conversion, address and name defaults,
 * locale normalisation), attaching a payment source to a checkout, and the
 * country-code conversion route.
 */
module Checkout {
  import opened Wrappers
  import opened JsText
  import opened Shapes

  /** Marker of a price tag that is a promotion discount. */
  const DiscountMarker := "DISCOUNT@"

  /** Marker of a shipping discount, which item discounts leave out. */
  const ShippingDiscountMarker := "DISCOUNT@SHIPPING"

  /** Placeholder for a missing street or city. */
  const UnknownPlace := "Unknown"

  // ---------------------------------------------------------------------------
  // Price-tag classification
  // ---------------------------------------------------------------------------

  /** A price tag counts as an item discount: `DISCOUNT@` in its upper-cased name, `DISCOUNT@SHIPPING` not. */
  predicate IsDiscountCandidate(tag: PriceTag) {
    var upper := ToUpper(tag.name);
    Contains(upper, DiscountMarker) && !Contains(upper, ShippingDiscountMarker)
  }

  predicate IsPercentCandidate(tag: PriceTag) {
    IsDiscountCandidate(tag) && tag.isPercentual
  }

  predicate IsAmountCandidate(tag: PriceTag) {
    IsDiscountCandidate(tag) && !tag.isPercentual
  }

  function Abs(x: real): real {
    if x < 0.0 then -x else x
  }

  /** Reference definition: the sum of `|value|` over the amount (non-percentual) discount tags. */
  function AmountSum(tags: seq<PriceTag>): (r: real)
    ensures r >= 0.0
    ensures (forall k :: 0 <= k < |tags| ==> !IsAmountCandidate(tags[k])) ==> r == 0.0
  {
    if |tags| == 0 then 0.0
    else
      var last := tags[|tags| - 1];
      AmountSum(tags[..|tags| - 1]) + (if IsAmountCandidate(last) then Abs(last.value) else 0.0)
  }

  /** Reference definition: `|value|` of the last percentual discount tag, 0 when there is none. */
  function LastPercent(tags: seq<PriceTag>): (r: real)
    ensures r >= 0.0
    ensures (forall k :: 0 <= k < |tags| ==> !IsPercentCandidate(tags[k])) ==> r == 0.0
    ensures forall k :: (0 <= k < |tags| && IsPercentCandidate(tags[k]) &&
                         forall j :: k < j < |tags| ==> !IsPercentCandidate(tags[j])) ==> r == Abs(tags[k].value)
  {
    if |tags| == 0 then 0.0
    else if IsPercentCandidate(tags[|tags| - 1]) then Abs(tags[|tags| - 1].value)
    else
      var prefix := tags[..|tags| - 1];
      assert forall k :: 0 <= k < |prefix| ==> prefix[k] == tags[k];
      LastPercent(prefix)
  }

  /**
   * The source's scan over an item's price tags: percent tags overwrite,
   * amount tags accumulate. It computes exactly the reference definitions.
   */
  method ClassifyPriceTags(tags: seq<PriceTag>) returns (discountPrice: real, discountPercent: real)
    ensures discountPrice == AmountSum(tags)
    ensures discountPercent == LastPercent(tags)
  {
    discountPrice := 0.0;
    discountPercent := 0.0;
    var i := 0;
    while i < |tags|
      invariant 0 <= i <= |tags|
      invariant discountPrice == AmountSum(tags[..i])
      invariant discountPercent == LastPercent(tags[..i])
    {
      var tag := tags[i];
      ScanStep(tags, i);
      if IsDiscountCandidate(tag) {
        if tag.isPercentual {
          assert IsPercentCandidate(tag);
          discountPercent := Abs(tag.value);
        } else {
          assert IsAmountCandidate(tag);
          discountPrice := discountPrice + Abs(tag.value);
        }
      }
      i := i + 1;
    }
    assert tags[..i] == tags;
  }

  /** Extending the scanned prefix by one tag: an amount tag adds to the sum, a percent tag replaces the percent. */
  lemma ScanStep(tags: seq<PriceTag>, i: int)
    requires 0 <= i < |tags|
    ensures AmountSum(tags[..i + 1]) == AmountSum(tags[..i]) + (if IsAmountCandidate(tags[i]) then Abs(tags[i].value) else 0.0)
    ensures LastPercent(tags[..i + 1]) == if IsPercentCandidate(tags[i]) then Abs(tags[i].value) else LastPercent(tags[..i])
  {
    assert tags[..i + 1][..i] == tags[..i];
  }

  /** The amount sum splits over concatenation. */
  lemma {:induction false} AmountSumAppend(a: seq<PriceTag>, b: seq<PriceTag>)
    ensures AmountSum(a + b) == AmountSum(a) + AmountSum(b)
    decreases |b|
  {
    if |b| > 0 {
      var b' := b[..|b| - 1];
      assert (a + b)[..|a + b| - 1] == a + b';
      assert (a + b)[|a + b| - 1] == b[|b| - 1];
      AmountSumAppend(a, b');
    } else {
      assert a + b == a;
    }
  }

  /** Amount discounts are summed, so their order does not matter (unlike percent discounts). */
  lemma AmountSumOrderIndependent(a: seq<PriceTag>, b: seq<PriceTag>)
    ensures AmountSum(a + b) == AmountSum(b + a)
  {
    AmountSumAppend(a, b);
    AmountSumAppend(b, a);
  }

  // ---------------------------------------------------------------------------
  // Item translation
  // ---------------------------------------------------------------------------

  /** A discount amount in minor units spread over `quantity` units, in major units per unit. */
  function PerUnitAmount(amount: real, quantity: int): (perUnit: real)
    requires quantity != 0
    ensures perUnit * 100.0 * quantity as real == amount
  {
    var q := quantity as real;
    var y := amount / 100.0;
    assert y / q * q == y;
    assert y / q * 100.0 * q == (y / q * q) * 100.0;
    y / q
  }

  /**
   * The discount of an item with percent discount `percent` and summed amount
   * discount `amount` (minor units): percent-off wins, then amount-off per
   * unit in major units, unbounded when spread over a zero quantity.
   */
  function ItemDiscount(percent: real, amount: real, quantity: int): (d: Option<Discount>)
    ensures d.None? <==> percent == 0.0 && amount == 0.0
    ensures d.Some? ==> d.value.quantity == quantity
    ensures (d.Some? && d.value.PercentOff?) <==> percent != 0.0
    ensures d.Some? && d.value.PercentOff? ==> d.value.percentOff == percent
    ensures d.Some? && d.value.AmountOff? ==> d.value.amountOff * 100.0 * quantity as real == amount
    ensures (d.Some? && d.value.UnboundedAmountOff?) <==> percent == 0.0 && amount != 0.0 && quantity == 0
  {
    if percent != 0.0 then Some(PercentOff(percent, quantity))
    else if amount != 0.0 && quantity == 0 then Some(UnboundedAmountOff(quantity))
    else if amount != 0.0 then Some(AmountOff(PerUnitAmount(amount, quantity), quantity))
    else None
  }

  /** One order-form item as a checkout item: the price in major units and its discount. */
  function TranslateItem(item: OrderFormItem): (c: CheckoutItem)
    ensures c.skuId == item.id && c.quantity == item.quantity
    ensures c.price * 100.0 == item.price
    ensures c.discount == ItemDiscount(LastPercent(item.priceTags), AmountSum(item.priceTags), item.quantity)
  {
    CheckoutItem(item.id, item.quantity, item.price / 100.0,
      ItemDiscount(LastPercent(item.priceTags), AmountSum(item.priceTags), item.quantity))
  }

  /** A raw price of 12345 minor units becomes 123.45. */
  lemma MinorUnitExample()
    ensures TranslateItem(OrderFormItem("sku", 1, 12345.0, [])).price == 123.45
  {
  }

  /** A percent discount wins over an amount discount on the same item. */
  lemma DiscountPrecedenceExample()
    ensures var tags := [PriceTag("DISCOUNT@PROMO", 10.0, true), PriceTag("discount@coupon", 500.0, false)];
      TranslateItem(OrderFormItem("sku", 2, 1000.0, tags)).discount == Some(PercentOff(10.0, 2))
  {
    var tags := [PriceTag("DISCOUNT@PROMO", 10.0, true), PriceTag("discount@coupon", 500.0, false)];
    assert ToUpper(tags[0].name) == "DISCOUNT@PROMO";
    assert OccursAt(ToUpper(tags[0].name), DiscountMarker, 0);
    assert IsPercentCandidate(tags[0]);
    assert !IsPercentCandidate(tags[1]);
  }

  /** The marker test ignores case: only the upper-cased name matters. */
  lemma DiscountCandidateIgnoresCase(tag: PriceTag)
    ensures IsDiscountCandidate(tag) == IsDiscountCandidate(tag.(name := ToUpper(tag.name)))
  {
    assert ToUpper(ToUpper(tag.name)) == ToUpper(tag.name);
  }

  /** A shipping discount is left out whatever its case, though it carries the discount marker. */
  lemma ShippingDiscountIsNoCandidate(value: real, isPercentual: bool)
    ensures var tag := PriceTag("Discount@Shipping", value, isPercentual);
      && Contains(ToUpper(tag.name), DiscountMarker)
      && !IsDiscountCandidate(tag)
  {
    var upper := ToUpper("Discount@Shipping");
    assert upper == "DISCOUNT@SHIPPING";
    assert OccursAt(upper, DiscountMarker, 0);
    assert OccursAt(upper, ShippingDiscountMarker, 0);
  }

  // ---------------------------------------------------------------------------
  // Payload assembly
  // ---------------------------------------------------------------------------

  /**
   * The two-letter shipping country, or "" when the order form has none: the
   * same conversion the tax webhook applies, reached through an optional address.
   */
  function ShippingCountry(address: Option<PostalAddress>, iso3To2: string -> string): (country: string)
    ensures address.None? ==> country == ""
    ensures address.Some? ==> country == ConvertedCountry(address.value.country, iso3To2)
  {
    if address.Some? && Truthy(address.value.country) then iso3To2(address.value.country.value) else ""
  }

  /** The shipping address in the processor's shape; street and city fall back to `Unknown`. */
  function AddressOf(address: Option<PostalAddress>, country: string): (a: CheckoutAddress)
    ensures a.line1 != "" && a.city != "" && a.country == country
    ensures a.line1 == (if address.Some? && Truthy(address.value.street) then address.value.street.value else UnknownPlace)
    ensures a.city == (if address.Some? && Truthy(address.value.city) then address.value.city.value else UnknownPlace)
    // complement, postal code and state fall back to ""
    ensures a.line2 == (if address.Some? then OrDefault(address.value.complement, "") else "")
    ensures a.postalCode == (if address.Some? then OrDefault(address.value.postalCode, "") else "")
    ensures a.state == (if address.Some? then OrDefault(address.value.state, "") else "")
  {
    match address
    case None => CheckoutAddress(UnknownPlace, "", UnknownPlace, "", "", country)
    case Some(addr) =>
      CheckoutAddress(
        OrDefault(addr.street, UnknownPlace),
        OrDefault(addr.complement, ""),
        OrDefault(addr.city, UnknownPlace),
        OrDefault(addr.postalCode, ""),
        OrDefault(addr.state, ""),
        country)
  }

  /** `"first last"` when both names are present and non-empty, "" otherwise. */
  function FullName(profile: Option<ClientProfile>): (name: string)
    ensures name != "" <==> profile.Some? && Truthy(profile.value.firstName) && Truthy(profile.value.lastName)
    ensures name != "" ==>
      var first := profile.value.firstName.value;
      |name| == |first| + 1 + |profile.value.lastName.value| && name[..|first|] == first && name[|first|] == ' '
        && name[|first| + 1..] == profile.value.lastName.value
  {
    if profile.Some? && Truthy(profile.value.firstName) && Truthy(profile.value.lastName) then
      profile.value.firstName.value + " " + profile.value.lastName.value
    else ""
  }

  /** The checkout locale: the preference or `en_US`, with its first `-` turned into `_`. */
  function NormaliseLocale(prefs: ClientPreferences): (locale: string)
    ensures prefs.locale.None? ==> locale == DefaultLocale
    ensures var given := prefs.locale.GetOr(DefaultLocale);
      && |locale| == |given|
      && ('-' !in given ==> locale == given)
      && ('-' in given ==> locale[IndexOf(given, '-')] == '_' &&
                           forall j :: 0 <= j < |given| && j != IndexOf(given, '-') ==> locale[j] == given[j])
  {
    assert '-' !in DefaultLocale;
    ReplaceFirst(prefs.locale.GetOr(DefaultLocale), '-', '_')
  }

  /** Shipping cost in major units: the `Shipping` totalizer divided by 100, or 0 without one. */
  function ShippingAmount(totalizers: seq<Totalizer>): (amount: real)
    ensures amount * 100.0 == FindTotal(totalizers, ShippingTotalId).GetOr(0.0)
  {
    match FindTotal(totalizers, ShippingTotalId)
    case Some(v) => if v != 0.0 then v / 100.0 else 0.0
    case None => 0.0
  }

  /** The checkout payload for an order form. */
  function BuildCheckoutPayload(form: OrderForm, prefs: ClientPreferences, browserIp: string, iso3To2: string -> string)
    : (p: CheckoutPayload)
    ensures |p.items| == |form.items|
    ensures forall i :: 0 <= i < |form.items| ==> p.items[i] == TranslateItem(form.items[i])
    ensures p.applicationId == ApplicationId && p.taxInclusive
    ensures p.currency == form.currencyCode.GetOr(DefaultCurrency)
    ensures p.locale == NormaliseLocale(prefs) && p.browserIp == Some(browserIp)
    ensures p.shipFrom == p.shipTo.address
    ensures p.shipTo.address == AddressOf(form.shippingAddress, ShippingCountry(form.shippingAddress, iso3To2))
    ensures p.shipTo.name == FullName(form.clientProfile)
    // a missing email becomes "" while an empty one is kept; a missing or empty phone becomes ""
    ensures p.email == (if form.clientProfile.Some? then form.clientProfile.value.email.GetOr("") else "")
    ensures p.shipTo.phone == (if form.clientProfile.Some? then OrDefault(form.clientProfile.value.phone, "") else "")
    ensures p.shippingChoice.amount * 100.0 == FindTotal(form.totalizers, ShippingTotalId).GetOr(0.0)
  {
    var address := AddressOf(form.shippingAddress, ShippingCountry(form.shippingAddress, iso3To2));
    var profile := form.clientProfile;
    var email := if profile.Some? then profile.value.email.GetOr("") else "";
    var phone := if profile.Some? then OrDefault(profile.value.phone, "") else "";
    var items := seq(|form.items|, i requires 0 <= i < |form.items| => TranslateItem(form.items[i]));
    CheckoutPayload(
      ApplicationId,
      form.currencyCode.GetOr(DefaultCurrency),
      true,
      email,
      NormaliseLocale(prefs),
      Some(browserIp),
      address,
      ShipTo(FullName(profile), phone, address),
      items,
      ShippingChoice(ShippingAmount(form.totalizers), "", ""))
  }

  // ---------------------------------------------------------------------------
  // Routes
  // ---------------------------------------------------------------------------

  /** The platform app credentials from the connector's settings. */
  datatype PlatformCredentials = PlatformCredentials(appKey: Option<string>, appToken: Option<string>)

  /** What each external call of the create-checkout route answers, should it be made. */
  datatype CreateCheckoutEnv = CreateCheckoutEnv(
    orderForm: Result<Option<OrderForm>, string>,
    checkout: Result<CreatedCheckout, string>)

  type RouteResult<T> = Traced<T, CheckoutCall>

  datatype CreateCheckoutBody = CreateCheckoutBody(checkoutId: string, paymentSessionId: string)

  /** Credentials, forwarded-for header and order-form id all pass the route's checks. */
  predicate CreateRequestValid(creds: PlatformCredentials, orderFormId: Option<string>, forwardedFor: Option<string>) {
    Truthy(creds.appKey) && Truthy(creds.appToken) && forwardedFor.Some? && Truthy(orderFormId)
  }

  /** The create-checkout route. */
  function DigitalRiverCreateCheckout(
    creds: PlatformCredentials,
    orderFormId: Option<string>,
    forwardedFor: Option<string>,
    iso3To2: string -> string,
    env: CreateCheckoutEnv)
    : (r: RouteResult<CreateCheckoutBody>)
    // missing credentials are rejected first, and nothing is called
    ensures !(Truthy(creds.appKey) && Truthy(creds.appToken)) ==>
      r == Traced(Err(AuthenticationError("Missing VTEX app key and token")), [])
    // a missing forwarded-for header makes the destructuring of its split throw
    ensures Truthy(creds.appKey) && Truthy(creds.appToken) && forwardedFor.None? ==>
      r.outcome.Err? && r.outcome.error.TypeError? && r.calls == []
    ensures Truthy(creds.appKey) && Truthy(creds.appToken) && forwardedFor.Some? && !Truthy(orderFormId) ==>
      r == Traced(Err(UserInputError("No orderForm ID provided")), [])
    // no call is made before every check passed; the order form is read first
    ensures r.calls == [] <==> !CreateRequestValid(creds, orderFormId, forwardedFor)
    ensures r.calls != [] ==> r.calls[0] == GetOrderForm(orderFormId.value) && |r.calls| <= 2
    // a failed order-form read is not caught
    ensures CreateRequestValid(creds, orderFormId, forwardedFor) && env.orderForm.Err? ==>
      r.outcome == Err(Propagated(env.orderForm.error)) && |r.calls| == 1
    ensures CreateRequestValid(creds, orderFormId, forwardedFor) && env.orderForm.Ok? && env.orderForm.value.Some? &&
            env.orderForm.value.value.clientPreferences.None? ==>
      r.outcome.Err? && r.outcome.error.TypeError? && |r.calls| == 1
    ensures CreateRequestValid(creds, orderFormId, forwardedFor) && env.orderForm == Ok(None) ==>
      r.outcome == Err(ResolverError("orderForm not found", None)) && |r.calls| == 1
    // the checkout is created from the order form's items, tax-inclusive, with the client's ip
    ensures |r.calls| == 2 ==>
      && env.orderForm.Ok? && env.orderForm.value.Some?
      && var form := env.orderForm.value.value;
      && form.clientPreferences.Some?
      && r.calls[1].CreateCheckout?
      && var p := r.calls[1].payload;
      && |p.items| == |form.items|
      && (forall i :: 0 <= i < |form.items| ==> p.items[i] == TranslateItem(form.items[i]))
      && p.taxInclusive
      && p.browserIp == Some(Split(forwardedFor.value, ',')[0])
      && p == BuildCheckoutPayload(form, form.clientPreferences.value, Split(forwardedFor.value, ',')[0], iso3To2)
    // an order form with preferences always leads to the checkout creation
    ensures CreateRequestValid(creds, orderFormId, forwardedFor) && env.orderForm.Ok? && env.orderForm.value.Some? &&
            env.orderForm.value.value.clientPreferences.Some? ==>
      |r.calls| == 2
    ensures r.outcome.Ok? <==> |r.calls| == 2 && env.checkout.Ok?
    ensures |r.calls| == 2 && env.checkout.Err? ==>
      r.outcome == Err(ResolverError("Checkout creation failed", Some(env.checkout.error)))
    ensures r.outcome.Ok? ==>
      r.outcome.value == CreateCheckoutBody(env.checkout.value.id, env.checkout.value.paymentSessionId)
  {
    if !(Truthy(creds.appKey) && Truthy(creds.appToken)) then
      Traced(Err(AuthenticationError("Missing VTEX app key and token")), [])
    else if forwardedFor.None? then
      Traced(Err(TypeError("undefined is not iterable")), [])
    else if !Truthy(orderFormId) then
      Traced(Err(UserInputError("No orderForm ID provided")), [])
    else
      var browserIp := Split(forwardedFor.value, ',')[0];
      var trace := [GetOrderForm(orderFormId.value)];
      match env.orderForm
      case Err(e) => Traced(Err(Propagated(e)), trace)
      case Ok(None) => Traced(Err(ResolverError("orderForm not found", None)), trace)
      case Ok(Some(form)) =>
        match form.clientPreferences
        case None => Traced(Err(TypeError("Cannot destructure 'clientPreferencesData' as it is undefined")), trace)
        case Some(prefs) =>
          var payload := BuildCheckoutPayload(form, prefs, browserIp, iso3To2);
          var trace := trace + [CreateCheckout(payload)];
          match env.checkout
          case Err(e) => Traced(Err(ResolverError("Checkout creation failed", Some(e))), trace)
          case Ok(created) => Traced(Ok(CreateCheckoutBody(created.id, created.paymentSessionId)), trace)
  }

  /** The update-checkout route: attach a payment source to a checkout. */
  function DigitalRiverUpdateCheckout(checkoutId: Option<string>, sourceId: Option<string>, update: Result<string, string>)
    : (r: RouteResult<string>)
    ensures r.calls == [] <==> !(Truthy(checkoutId) && Truthy(sourceId))
    ensures r.calls == [] ==> r.outcome == Err(UserInputError("Checkout ID and Source ID must be provided"))
    ensures r.calls != [] ==> r.calls == [UpdateCheckoutWithSource(checkoutId.value, sourceId.value)]
    ensures r.outcome.Ok? <==> r.calls != [] && update.Ok?
    ensures r.calls != [] && update.Err? ==> r.outcome == Err(ResolverError("Update Checkout failure", Some(update.error)))
    ensures r.outcome.Ok? ==> r.outcome.value == update.value
  {
    if !(Truthy(checkoutId) && Truthy(sourceId)) then
      Traced(Err(UserInputError("Checkout ID and Source ID must be provided")), [])
    else
      var trace := [UpdateCheckoutWithSource(checkoutId.value, sourceId.value)];
      match update
      case Err(e) => Traced(Err(ResolverError("Update Checkout failure", Some(e))), trace)
      case Ok(answer) => Traced(Ok(answer), trace)
  }

  /** The country-code route: a three-character code, upper-cased, converted to two letters. */
  function CountryCode(country: Option<string>, iso3To2: string -> string): (r: Result<string, Error>)
    ensures r.Ok? <==> country.Some? && |country.value| == 3
    ensures r.Err? ==> r.error == UserInputError("3 digit country code must be provided")
    ensures r.Ok? ==> r.value == iso3To2(ToUpper(country.value))
  {
    if !Truthy(country) || |country.value| != 3 then Err(UserInputError("3 digit country code must be provided"))
    else Ok(iso3To2(ToUpper(country.value)))
  }

  /** The country-code route ignores letter case. */
  lemma CountryCodeIgnoresCase(a: string, b: string, iso3To2: string -> string)
    requires |a| == |b| && forall i :: 0 <= i < |a| ==> UpperChar(a[i]) == UpperChar(b[i])
    ensures CountryCode(Some(a), iso3To2) == CountryCode(Some(b), iso3To2)
  {
    assert ToUpper(a) == ToUpper(b);
  }
}

=== FILE: js_text.dfy ===
/**
 * The few JavaScript string and truthiness semantics the handlers rely on:
 * `String.prototype.split` on a one-character separator, `toUpperCase` and
 * `toLowerCase` (ASCII letters only), `includes`, `replace` with a string
 * pattern (first occurrence only), `||`, `??` and template-literal rendering.
 */
module JsText {
  import opened Wrappers

  /** JavaScript truthiness of an optional string: present and non-empty. */
  predicate Truthy(s: Option<string>) {
    s.Some? && s.value != ""
  }

  /** `a || b` on optional strings. */
  function Or(a: Option<string>, b: Option<string>): Option<string> {
    if Truthy(a) then a else b
  }

  /** `a || d` where the fallback `d` is a literal string. */
  function OrDefault(a: Option<string>, d: string): string {
    if Truthy(a) then a.value else d
  }

  /** Rendering of an optional string inside a template literal: `${undefined}` is "undefined". */
  function Show(s: Option<string>): string {
    s.GetOr("undefined")
  }

  function UpperChar(c: char): char {
    if 'a' <= c <= 'z' then (c as int - 32) as char else c
  }

  function LowerChar(c: char): char {
    if 'A' <= c <= 'Z' then (c as int + 32) as char else c
  }

  /** `s.toUpperCase()`, restricted to the ASCII letters. */
  function ToUpper(s: string): (r: string)
    ensures |r| == |s|
  {
    seq(|s|, i requires 0 <= i < |s| => UpperChar(s[i]))
  }

  /** `s.toLowerCase()`, restricted to the ASCII letters. */
  function ToLower(s: string): (r: string)
    ensures |r| == |s|
  {
    seq(|s|, i requires 0 <= i < |s| => LowerChar(s[i]))
  }

  /** `sub` occurs in `s` starting at position `i`. */
  predicate OccursAt(s: string, sub: string, i: int) {
    0 <= i && i + |sub| <= |s| && s[i..i + |sub|] == sub
  }

  /** `s.includes(sub)`. */
  predicate Contains(s: string, sub: string) {
    exists i :: 0 <= i <= |s| - |sub| && OccursAt(s, sub, i)
  }

  /** Position of the first occurrence of `c` in `s`. */
  function IndexOf(s: string, c: char): (i: nat)
    requires c in s
    ensures i < |s| && s[i] == c
    ensures c !in s[..i]
  {
    if s[0] == c then 0
    else
      assert c in s[1..] by { var k :| 0 <= k < |s| && s[k] == c; assert s[1..][k - 1] == c; }
      var j := IndexOf(s[1..], c);
      assert s[..j + 1] == [s[0]] + s[1..][..j];
      1 + j
  }

  /** `s.split(sep)` for a one-character separator: never empty, one part per separator plus one. */
  function Split(s: string, sep: char): (parts: seq<string>)
    ensures |parts| >= 1
    decreases |s|
  {
    if sep !in s then [s]
    else
      var i := IndexOf(s, sep);
      [s[..i]] + Split(s[i + 1..], sep)
  }

  /** `parts.join(sep)`, the inverse of `Split`. */
  function Join(parts: seq<string>, sep: char): string
    requires |parts| >= 1
  {
    if |parts| == 1 then parts[0]
    else parts[0] + [sep] + Join(parts[1..], sep)
  }

  /** `s.replace(from, to)` for one-character strings: only the first occurrence changes. */
  function ReplaceFirst(s: string, from: char, to: char): (r: string)
    ensures |r| == |s|
    ensures from !in s ==> r == s
    ensures from in s ==> r[IndexOf(s, from)] == to
    ensures from in s ==> forall j :: 0 <= j < |s| && j != IndexOf(s, from) ==> r[j] == s[j]
  {
    if from in s then
      var i := IndexOf(s, from);
      s[..i] + [to] + s[i + 1..]
    else s
  }

  /** `n.toString()` for a natural number, most significant digit first. */
  function NatToString(n: nat): (s: string)
    ensures |s| >= 1
    ensures forall i :: 0 <= i < |s| ==> '0' <= s[i] <= '9'
  {
    var d := [(48 + n % 10) as char];
    if n < 10 then d else NatToString(n / 10) + d
  }

  /** One step of `Split` on a string that holds the separator. */
  lemma SplitStep(s: string, sep: char)
    requires sep in s
    ensures Split(s, sep) == [s[..IndexOf(s, sep)]] + Split(s[IndexOf(s, sep) + 1..], sep)
  {
  }

  /** Joining a part in front of at least one more puts the separator between them. */
  lemma JoinCons(p: string, rest: seq<string>, sep: char)
    requires |rest| >= 1
    ensures Join([p] + rest, sep) == p + [sep] + Join(rest, sep)
  {
    assert ([p] + rest)[1..] == rest;
  }

  /** Splitting and joining again gives back the original string. */
  lemma {:induction false} SplitJoin(s: string, sep: char)
    ensures Join(Split(s, sep), sep) == s
    decreases |s|
  {
    if sep in s {
      var i := IndexOf(s, sep);
      var tail := s[i + 1..];
      calc {
        Join(Split(s, sep), sep);
        { SplitStep(s, sep); }
        Join([s[..i]] + Split(tail, sep), sep);
        { JoinCons(s[..i], Split(tail, sep), sep); }
        s[..i] + [sep] + Join(Split(tail, sep), sep);
        { SplitJoin(tail, sep); }
        s[..i] + [sep] + tail;
        { assert s == s[..i] + [sep] + tail; }
        s;
      }
    }
  }

  /** No part of a split contains the separator. */
  lemma {:induction false} SplitPartsFree(s: string, sep: char)
    ensures forall k :: 0 <= k < |Split(s, sep)| ==> sep !in Split(s, sep)[k]
    decreases |s|
  {
    if sep in s {
      var i := IndexOf(s, sep);
      var rest := Split(s[i + 1..], sep);
      SplitPartsFree(s[i + 1..], sep);
      assert Split(s, sep) == [s[..i]] + rest;
      forall k | 0 <= k < |Split(s, sep)|
        ensures sep !in Split(s, sep)[k]
      {
        if k > 0 {
          assert Split(s, sep)[k] == rest[k - 1];
        }
      }
    }
  }

  /**
   * The first part of a split is the longest prefix free of the separator:
   * it is either the whole string or followed by the separator.
   */
  lemma SplitFirstPart(s: string, sep: char)
    ensures var p := Split(s, sep)[0];
      && p <= s
      && sep !in p
      && (p == s || (|p| < |s| && s[|p|] == sep))
  {
    if sep in s {
      var i := IndexOf(s, sep);
      assert Split(s, sep)[0] == s[..i];
    }
  }
}

=== FILE: payment.dfy ===
/**
 * The payment-provider handlers of node/middlewares/index.ts: the
 * authorization state machine and the settlement, refund and cancellation
 * orchestrators. Every processor or platform call is an input (its outcome)
 * and every handler returns its outcome together with the calls it issued,
 * in order, so that "nothing is called after X" can be stated.
 */
module Payment {
  import opened Wrappers
  import opened JsText
  import opened Shapes

  /** The one payment method the connector handles and advertises. */
  const SupportedMethod := "DigitalRiver"

  /** Id of the custom app under which the platform order keeps the checkout id. */
  const CustomAppId := "digital-river"

  /** Suffix that turns an order-group id into the platform's first order id. */
  const OrderSuffix := "-01"

  const UnsupportedMessage := "Payment method not supported"
  const NoCheckoutIdMessage := "No Digital River Checkout ID found in VTEX order data"

  // ---------------------------------------------------------------------------
  // Requests, responses, environment and call trace
  // ---------------------------------------------------------------------------

  datatype AuthorizationRequest = AuthorizationRequest(
    reference: string,
    orderId: string,
    paymentId: string,
    paymentMethod: string,
    url: Option<string>)

  /**
   * The platform's authorization response. Denials raised by a failed
   * downstream call carry no `authorizationId` at all (None), unlike the
   * lookup and unsupported-method answers, which carry the empty string.
   */
  datatype AuthorizationResponse = AuthorizationResponse(
    paymentId: string,
    tid: string,
    authorizationId: Option<string>,
    status: string,
    message: string,
    code: Option<string>)

  /** An entry of the platform order's `customData.customApps`; `checkoutId` is `fields.checkoutId`. */
  datatype CustomApp = CustomApp(id: string, checkoutId: Option<string>)

  /** The platform order as read by authorize; `customApps` is None when `customData` is missing. */
  datatype PlatformOrder = PlatformOrder(customApps: Option<seq<CustomApp>>)

  /** The raw create-order answer: HTTP status and the new processor order. */
  datatype CreatedOrder = CreatedOrder(httpStatus: nat, order: ProcessorOrder)

  /** What each external call of authorize answers, should it be made. */
  datatype AuthorizeEnv = AuthorizeEnv(
    lookup: Result<seq<ProcessorOrder>, string>,
    platformOrder: Result<PlatformOrder, string>,
    link: Result<(), string>,
    create: Result<CreatedOrder, string>)

  /** The processor and platform calls of the payment handlers. */
  datatype Call =
    | GetOrdersByUpstreamId(upstreamId: string)
    | GetPlatformOrder(orderId: string, originatingAccount: string)
    | UpdateCheckoutWithUpstreamId(checkoutId: string, upstreamId: string)
    | CreateOrder(checkoutId: string)
    | GetOrderById(orderRef: Option<string>)
    | FulfillOrCancelOrder(payload: FulfillmentPayload)
    | RefundOrder(refund: RefundPayload)

  /** A handler's outcome (response or thrown error) and the calls it made, in order. */
  type Handled<T> = Traced<T, Call>

  // ---------------------------------------------------------------------------
  // Payment methods
  // ---------------------------------------------------------------------------

  /** The `paymentMethods` answer: exactly the supported method. */
  function AvailablePaymentMethods(): (methods: seq<string>)
    ensures forall m :: m in methods <==> m == SupportedMethod
  {
    [SupportedMethod]
  }

  // ---------------------------------------------------------------------------
  // State mappings
  // ---------------------------------------------------------------------------

  /** The capitalised label the lookup branch assigns before lower-casing it. */
  function LookupStatusLabel(state: string): string {
    if state == "accepted" then "Approved"
    else if state == "failed" || state == "blocked" then "Denied"
    else "Undefined"
  }

  /** Status of an order found by the idempotency lookup. */
  function LookupStatus(state: string): (status: string)
    ensures state == "accepted" ==> status == "approved"
    ensures state == "failed" || state == "blocked" ==> status == "denied"
    ensures state != "accepted" && state != "failed" && state != "blocked" ==> status == "undefined"
  {
    var capitalised := LookupStatusLabel(state);
    assert ToLower("Approved") == "approved";
    assert ToLower("Denied") == "denied";
    assert ToLower("Undefined") == "undefined";
    ToLower(capitalised)
  }

  /** Status of a freshly created order: pending or in review is undetermined, anything else approved. */
  function CreatedStatus(state: string): (status: string)
    // a created order is never denied, not even in a failed or blocked state
    ensures status in {"approved", "undefined"}
    ensures state == "failed" || state == "blocked" ==> status == "approved"
  {
    if state == "payment_pending" || state == "in_review" then "undefined" else "approved"
  }

  /** The two mappings agree exactly on `accepted`, `payment_pending` and `in_review`. */
  lemma MappingsAgreeOnlyOnThreeStates(state: string)
    ensures CreatedStatus(state) == "undefined" <==> state == "payment_pending" || state == "in_review"
    ensures CreatedStatus(state) == "approved" <==> state != "payment_pending" && state != "in_review"
    ensures LookupStatus(state) == CreatedStatus(state)
        <==> state == "accepted" || state == "payment_pending" || state == "in_review"
  {
  }

  // ---------------------------------------------------------------------------
  // Request parsing
  // ---------------------------------------------------------------------------

  /**
   * The account the order was placed through: the first `.`-label of the
   * third `/`-segment of the callback url, or "" without url. A url with
   * fewer than three segments makes the source read `.split` of undefined.
   */
  function OriginatingAccount(url: Option<string>): (r: Result<string, Error>)
    ensures url.None? ==> r == Ok("")
    ensures url.Some? ==> (r.Ok? <==> |Split(url.value, '/')| >= 3)
    ensures r.Ok? ==> '.' !in r.value && '/' !in r.value
    ensures r.Ok? && url.Some? ==> r.value <= Split(url.value, '/')[2]
    // it runs up to the first `.` of the segment, or is the whole segment when there is none
    ensures r.Ok? && url.Some? ==>
      var segment := Split(url.value, '/')[2];
      r.value == segment || (|r.value| < |segment| && segment[|r.value|] == '.')
  {
    match url
    case None => Ok("")
    case Some(u) =>
      var segments := Split(u, '/');
      if |segments| < 3 then Err(TypeError("Cannot read properties of undefined (reading 'split')"))
      else
        SplitPartsFree(u, '/');
        SplitFirstPart(segments[2], '.');
        Ok(Split(segments[2], '.')[0])
  }

  /** `customApps` has an entry with the connector's id at `k`, and none before it. */
  predicate FirstCustomAppAt(apps: seq<CustomApp>, k: int) {
    0 <= k < |apps| && apps[k].id == CustomAppId && forall j :: 0 <= j < k ==> apps[j].id != CustomAppId
  }

  function FindCustomApp(apps: seq<CustomApp>): (r: Option<CustomApp>)
    ensures r.None? <==> forall k :: 0 <= k < |apps| ==> apps[k].id != CustomAppId
    ensures r.Some? ==> exists k :: FirstCustomAppAt(apps, k) && apps[k] == r.value
  {
    if |apps| == 0 then None
    else if apps[0].id == CustomAppId then
      assert FirstCustomAppAt(apps, 0);
      Some(apps[0])
    else
      var r := FindCustomApp(apps[1..]);
      assert forall k :: 1 <= k < |apps| ==> apps[1..][k - 1] == apps[k];
      assert r.Some? ==> exists k :: FirstCustomAppAt(apps, k) && apps[k] == r.value by {
        if r.Some? {
          var k :| FirstCustomAppAt(apps[1..], k) && apps[1..][k] == r.value;
          assert FirstCustomAppAt(apps, k + 1);
        }
      }
      r
  }

  /** The checkout id stored on the platform order, or "" when there is none. */
  function CheckoutIdOf(order: PlatformOrder): (checkoutId: string)
    ensures checkoutId != "" <==>
      order.customApps.Some? &&
      exists k :: FirstCustomAppAt(order.customApps.value, k) && Truthy(order.customApps.value[k].checkoutId)
    ensures checkoutId != "" ==>
      exists k :: FirstCustomAppAt(order.customApps.value, k) && order.customApps.value[k].checkoutId == Some(checkoutId)
  {
    match order.customApps
    case None => ""
    case Some(apps) =>
      match FindCustomApp(apps)
      case None => ""
      case Some(app) =>
        assert forall k, k' :: FirstCustomAppAt(apps, k) && FirstCustomAppAt(apps, k') ==> k == k';
        OrDefault(app.checkoutId, "")
  }

  // ---------------------------------------------------------------------------
  // authorize
  // ---------------------------------------------------------------------------

  /** The idempotency lookup found at least one processor order. */
  predicate LookupHit(env: AuthorizeEnv) {
    env.lookup.Ok? && |env.lookup.value| > 0
  }

  /** The failure answered by the call at position `step` (1 to 3) of the authorize trace, if any. */
  function StepFailure(env: AuthorizeEnv, step: nat): Option<string> {
    if step == 1 && env.platformOrder.Err? then Some(env.platformOrder.error)
    else if step == 2 && env.link.Err? then Some(env.link.error)
    else if step == 3 && env.create.Err? then Some(env.create.error)
    else None
  }

  predicate EndsWith(s: string, suffix: string) {
    |suffix| <= |s| && s[|s| - |suffix|..] == suffix
  }

  function Denial(req: AuthorizationRequest, message: string): AuthorizationResponse {
    AuthorizationResponse(req.paymentId, "", None, "denied", message, None)
  }

  /** A denial message built as `prefix + failure` ends with the failure. */
  lemma DenialEmbedsFailure(prefix: string, failure: string)
    ensures EndsWith(prefix + failure, failure)
  {
    assert (prefix + failure)[|prefix|..] == failure;
  }

  /**
   * The last two calls of authorize: link the upstream id to the checkout,
   * then promote the checkout to a processor order.
   */
  function LinkAndCreate(req: AuthorizationRequest, checkoutId: string, env: AuthorizeEnv)
    : (a: Handled<AuthorizationResponse>)
    ensures 1 <= |a.calls| <= 2 && a.calls[0] == UpdateCheckoutWithUpstreamId(checkoutId, req.reference)
    ensures |a.calls| == 2 <==> env.link.Ok?
    ensures |a.calls| == 2 ==> a.calls[1] == CreateOrder(checkoutId)
    ensures a.outcome.Ok? && a.outcome.value.paymentId == req.paymentId
    ensures env.link.Err? ==>
      a.outcome.value.status == "denied" && a.outcome.value.tid == "" && EndsWith(a.outcome.value.message, env.link.error)
    ensures env.link.Ok? && env.create.Err? ==>
      a.outcome.value.status == "denied" && a.outcome.value.tid == "" && EndsWith(a.outcome.value.message, env.create.error)
    ensures env.link.Ok? && env.create.Ok? ==>
      && a.outcome.value.tid == env.create.value.order.id
      && a.outcome.value.authorizationId == Some(env.create.value.order.id)
      && a.outcome.value.status == CreatedStatus(env.create.value.order.state)
  {
    var trace := [UpdateCheckoutWithUpstreamId(checkoutId, req.reference)];
    match env.link
    case Err(e) =>
      var prefix := "Update checkout error for Checkout ID " + checkoutId + ": ";
      DenialEmbedsFailure(prefix, e);
      Traced(Ok(Denial(req, prefix + e)), trace)
    case Ok(_) =>
      var trace := trace + [CreateOrder(checkoutId)];
      match env.create
      case Err(e) =>
        var prefix := "Order creation error for Checkout ID " + checkoutId + ": ";
        DenialEmbedsFailure(prefix, e);
        Traced(Ok(Denial(req, prefix + e)), trace)
      case Ok(created) =>
        var id := created.order.id;
        var state := created.order.state;
        var message := "Successfully created Digital River order using Checkout ID " + checkoutId
          + ". See TID field for Digital River Order ID. Digital River order state is " + state + ".";
        Traced(Ok(AuthorizationResponse(req.paymentId, id, Some(id), CreatedStatus(state), message,
          Some(NatToString(created.httpStatus)))), trace)
  }

  /**
   * Authorize past the payment-method gate: read the platform order and the
   * checkout id stored on it; without one the request is denied, otherwise
   * the checkout is linked and promoted.
   */
  function ResolveCheckout(req: AuthorizationRequest, account: string, env: AuthorizeEnv)
    : (a: Handled<AuthorizationResponse>)
    ensures 1 <= |a.calls| <= 3 && a.calls[0] == GetPlatformOrder(req.orderId + OrderSuffix, account)
    ensures a.outcome.Ok? && a.outcome.value.paymentId == req.paymentId
    ensures env.platformOrder.Err? ==>
      && |a.calls| == 1
      && a.outcome.value.status == "denied" && a.outcome.value.tid == ""
      && EndsWith(a.outcome.value.message, env.platformOrder.error)
    ensures env.platformOrder.Ok? && CheckoutIdOf(env.platformOrder.value) == "" ==>
      |a.calls| == 1 && a.outcome == Ok(Denial(req, NoCheckoutIdMessage))
    ensures env.platformOrder.Ok? && CheckoutIdOf(env.platformOrder.value) != "" ==>
      var linked := LinkAndCreate(req, CheckoutIdOf(env.platformOrder.value), env);
      a.calls == [a.calls[0]] + linked.calls && a.outcome == linked.outcome
  {
    var trace := [GetPlatformOrder(req.orderId + OrderSuffix, account)];
    match env.platformOrder
    case Err(e) =>
      var prefix := "Get VTEX order " + req.orderId + " error: ";
      DenialEmbedsFailure(prefix, e);
      Traced(Ok(Denial(req, prefix + e)), trace)
    case Ok(order) =>
      var checkoutId := CheckoutIdOf(order);
      if checkoutId == "" then Traced(Ok(Denial(req, NoCheckoutIdMessage)), trace)
      else
        var linked := LinkAndCreate(req, checkoutId, env);
        Traced(linked.outcome, trace + linked.calls)
  }

  /**
   * The authorization handler. Apart from a malformed callback url, which
   * makes the source throw, it always answers with a decision.
   */
  function Authorize(req: AuthorizationRequest, env: AuthorizeEnv): (a: Handled<AuthorizationResponse>)
    // the idempotency lookup always comes first, and at most four calls are made
    ensures 1 <= |a.calls| <= 4 && a.calls[0] == GetOrdersByUpstreamId(req.reference)
    // an order found by the lookup decides, and nothing else is called
    ensures LookupHit(env) ==>
      && a.calls == [GetOrdersByUpstreamId(req.reference)]
      && a.outcome.Ok?
      && a.outcome.value.tid == env.lookup.value[0].id
      && a.outcome.value.authorizationId == Some("")
      && a.outcome.value.status == LookupStatus(env.lookup.value[0].state)
    // any other payment method is denied right after the lookup
    ensures !LookupHit(env) && req.paymentMethod != SupportedMethod ==>
      && |a.calls| == 1
      && a.outcome.Ok?
      && a.outcome.value.status == "denied"
      && a.outcome.value.message == UnsupportedMessage
      && a.outcome.value.tid == ""
    // the only throw is a malformed callback url
    ensures a.outcome.Err? <==>
      !LookupHit(env) && req.paymentMethod == SupportedMethod && OriginatingAccount(req.url).Err?
    // a freshly created order: pending or in review is undetermined, anything else approved
    ensures |a.calls| == 4 && env.create.Ok? ==>
      && a.outcome.Ok?
      && a.outcome.value.tid == env.create.value.order.id
      && a.outcome.value.authorizationId == Some(env.create.value.order.id)
      && a.outcome.value.status == CreatedStatus(env.create.value.order.state)
    // approval always names the processor order that justifies it
    ensures a.outcome.Ok? && a.outcome.value.status == "approved" ==>
      || (LookupHit(env) && env.lookup.value[0].state == "accepted" && a.outcome.value.tid == env.lookup.value[0].id)
      || (|a.calls| == 4 && env.create.Ok? && a.outcome.value.tid == env.create.value.order.id)
    ensures a.outcome.Ok? ==>
      && a.outcome.value.paymentId == req.paymentId
      && a.outcome.value.status in {"approved", "denied", "undefined"}
    // past the gate, with a well-formed url, the rest of the flow is exactly ResolveCheckout's
    ensures !LookupHit(env) && req.paymentMethod == SupportedMethod && OriginatingAccount(req.url).Ok? ==>
      var resolved := ResolveCheckout(req, OriginatingAccount(req.url).value, env);
      a.calls == [a.calls[0]] + resolved.calls && a.outcome == resolved.outcome
  {
    var trace := [GetOrdersByUpstreamId(req.reference)];
    if LookupHit(env) then
      var order := env.lookup.value[0];
      var message := "Existing Digital River order located using Upstream ID " + req.reference
        + ", state is '" + order.state + "'";
      Traced(Ok(AuthorizationResponse(req.paymentId, order.id, Some(""), LookupStatus(order.state), message, None)), trace)
    else if req.paymentMethod != SupportedMethod then
      Traced(Ok(AuthorizationResponse(req.paymentId, "", Some(""), "denied", UnsupportedMessage, None)), trace)
    else
      match OriginatingAccount(req.url)
      case Err(e) => Traced(Err(e), trace)
      case Ok(account) =>
        var resolved := ResolveCheckout(req, account, env);
        Traced(resolved.outcome, trace + resolved.calls)
  }

  /**
   * The calls of authorize past the gate follow the fixed order get-order,
   * link, create; each is made only when every earlier one succeeded, and a
   * failing call ends the flow with a denial that embeds the failure.
   */
  lemma AuthorizeCallOrder(req: AuthorizationRequest, env: AuthorizeEnv)
    // the platform order is read as `orderId-01` under the originating account
    ensures var a := Authorize(req, env);
      |a.calls| >= 2 ==>
        && !LookupHit(env) && req.paymentMethod == SupportedMethod
        && OriginatingAccount(req.url).Ok?
        && a.calls[1] == GetPlatformOrder(req.orderId + OrderSuffix, OriginatingAccount(req.url).value)
    // the upstream id is linked to the stored checkout id, never to an empty one
    ensures var a := Authorize(req, env);
      |a.calls| >= 3 ==>
        && env.platformOrder.Ok?
        && CheckoutIdOf(env.platformOrder.value) != ""
        && a.calls[2] == UpdateCheckoutWithUpstreamId(CheckoutIdOf(env.platformOrder.value), req.reference)
    // an order is created only from the checkout just linked
    ensures var a := Authorize(req, env);
      |a.calls| == 4 ==> env.link.Ok? && a.calls[3] == CreateOrder(a.calls[2].checkoutId)
    // without a stored checkout id the request is denied before any update or creation
    ensures var a := Authorize(req, env);
      |a.calls| == 2 && env.platformOrder.Ok? ==>
        && CheckoutIdOf(env.platformOrder.value) == ""
        && a.outcome == Ok(Denial(req, NoCheckoutIdMessage))
    // a failed call ends the flow with a denial that embeds the failure
    ensures var a := Authorize(req, env);
      |a.calls| >= 2 && StepFailure(env, |a.calls| - 1).Some? ==>
        && a.outcome.Ok?
        && a.outcome.value.status == "denied"
        && a.outcome.value.tid == ""
        && EndsWith(a.outcome.value.message, StepFailure(env, |a.calls| - 1).value)
    // every call but the lookup and the last one succeeded
    ensures var a := Authorize(req, env);
      forall i :: 1 <= i < |a.calls| - 1 ==> StepFailure(env, i).None?
    // a successful link is always followed by the order creation
    ensures var a := Authorize(req, env);
      |a.calls| >= 3 && env.link.Ok? ==> |a.calls| == 4
    // when the checkout id is found and linked, an order is created
    ensures var a := Authorize(req, env);
      && !LookupHit(env) && req.paymentMethod == SupportedMethod && OriginatingAccount(req.url).Ok?
      && env.platformOrder.Ok? && CheckoutIdOf(env.platformOrder.value) != "" && env.link.Ok?
      ==> |a.calls| == 4 && a.calls[3] == CreateOrder(CheckoutIdOf(env.platformOrder.value))
  
  {
  }

  /** A failing lookup is swallowed: authorize proceeds exactly as if no order had been found. */
  lemma LookupFailureIsSwallowed(req: AuthorizationRequest, env: AuthorizeEnv)
    requires env.lookup.Err?
    ensures Authorize(req, env) == Authorize(req, env.(lookup := Ok([])))
  {
  }

  /**
   * Authorize is safe to repeat: once a call has created an order and the
   * lookup returns it, a second call reports that order and creates nothing.
   */
  lemma RepeatedAuthorizeCreatesNoSecondOrder(req: AuthorizationRequest, first: AuthorizeEnv, second: AuthorizeEnv)
    requires first.create.Ok?
    requires second.lookup.Ok? && |second.lookup.value| > 0 && second.lookup.value[0] == first.create.value.order
    ensures forall c :: c in Authorize(req, second).calls ==> !c.CreateOrder?
    ensures Authorize(req, second).outcome.Ok?
    // when the first call got as far as creating the order, both report it
    ensures |Authorize(req, first).calls| == 4 ==>
      Authorize(req, second).outcome.value.tid == Authorize(req, first).outcome.value.tid
  {
  }

  /** Past the lookup, exactly the advertised payment methods get beyond the gate. */
  lemma GateAdmitsExactlyAdvertisedMethods(req: AuthorizationRequest, env: AuthorizeEnv)
    requires !LookupHit(env)
    ensures (|Authorize(req, env).calls| > 1 || Authorize(req, env).outcome.Err?)
        <==> req.paymentMethod in AvailablePaymentMethods()
  {
  }

  // ---------------------------------------------------------------------------
  // settle, refund, cancel
  // ---------------------------------------------------------------------------

  datatype SettlementRequest = SettlementRequest(
    paymentId: string,
    requestId: string,
    value: real,
    tid: Option<string>,
    authorizationId: Option<string>)

  datatype SettlementResponse = SettlementResponse(
    settleId: string,
    message: string,
    paymentId: string,
    value: real,
    requestId: string)

  datatype RefundRequest = RefundRequest(
    paymentId: string,
    requestId: string,
    value: real,
    tid: Option<string>,
    authorizationId: Option<string>)

  datatype RefundResponse = RefundResponse(
    refundId: string,
    message: string,
    paymentId: string,
    requestId: string,
    value: real)

  datatype CancellationRequest = CancellationRequest(
    paymentId: string,
    requestId: string,
    transactionId: string,
    tid: Option<string>,
    authorizationId: Option<string>)

  datatype CancellationResponse = CancellationResponse(
    cancellationId: string,
    message: string,
    transactionId: string,
    paymentId: string,
    requestId: string)

  /** Full-quantity fulfilment lines, one per order item, in order. */
  function SettlementItems(items: seq<OrderItem>): (r: seq<FulfillmentItem>)
    ensures |r| == |items|
    ensures forall i :: 0 <= i < |items| ==>
      r[i].itemId == items[i].id && r[i].quantity == Some(items[i].quantity) && r[i].cancelQuantity.None?
  {
    if |items| == 0 then []
    else [FulfillmentItem(items[0].id, Some(items[0].quantity), None)] + SettlementItems(items[1..])
  }

  /** Full-quantity cancellation lines, one per order item, in order. */
  function CancellationItems(items: seq<OrderItem>): (r: seq<FulfillmentItem>)
    ensures |r| == |items|
    ensures forall i :: 0 <= i < |items| ==>
      r[i].itemId == items[i].id && r[i].cancelQuantity == Some(items[i].quantity) && r[i].quantity.None?
  {
    if |items| == 0 then []
    else [FulfillmentItem(items[0].id, None, Some(items[0].quantity))] + CancellationItems(items[1..])
  }

  /** The order lines a settlement request captures, read back from its payload. */
  function SettledLines(lines: seq<FulfillmentItem>): seq<OrderItem> {
    if |lines| == 0 then []
    else [OrderItem(lines[0].itemId, lines[0].quantity.GetOr(0))] + SettledLines(lines[1..])
  }

  /** The order lines a cancellation request cancels, read back from its payload. */
  function CancelledLines(lines: seq<FulfillmentItem>): seq<OrderItem> {
    if |lines| == 0 then []
    else [OrderItem(lines[0].itemId, lines[0].cancelQuantity.GetOr(0))] + CancelledLines(lines[1..])
  }

  /** Reading back a payload line by line. */
  lemma LinesCons(line: FulfillmentItem, rest: seq<FulfillmentItem>)
    ensures SettledLines([line] + rest) == [OrderItem(line.itemId, line.quantity.GetOr(0))] + SettledLines(rest)
    ensures CancelledLines([line] + rest) == [OrderItem(line.itemId, line.cancelQuantity.GetOr(0))] + CancelledLines(rest)
  {
    assert ([line] + rest)[1..] == rest;
  }

  /** A settlement captures exactly the order's items at their full quantities. */
  lemma {:induction false} SettlementRoundTrip(items: seq<OrderItem>)
    ensures SettledLines(SettlementItems(items)) == items
  {
    if |items| > 0 {
      var line := FulfillmentItem(items[0].id, Some(items[0].quantity), None);
      var rest := SettlementItems(items[1..]);
      LinesCons(line, rest);
      SettlementRoundTrip(items[1..]);
      calc {
        SettledLines(SettlementItems(items));
        SettledLines([line] + rest);
        [items[0]] + SettledLines(rest);
        { assert items == [items[0]] + items[1..]; }
        items;
      }
    }
  }

  /** A cancellation cancels exactly the order's items at their full quantities. */
  lemma {:induction false} CancellationRoundTrip(items: seq<OrderItem>)
    ensures CancelledLines(CancellationItems(items)) == items
  {
    if |items| > 0 {
      var line := FulfillmentItem(items[0].id, None, Some(items[0].quantity));
      var rest := CancellationItems(items[1..]);
      LinesCons(line, rest);
      CancellationRoundTrip(items[1..]);
      calc {
        CancelledLines(CancellationItems(items));
        CancelledLines([line] + rest);
        [items[0]] + CancelledLines(rest);
        { assert items == [items[0]] + items[1..]; }
        items;
      }
    }
  }

  /** The settlement handler; it looks the order up by `tid` alone. */
  function Settle(req: SettlementRequest, getOrder: Result<ProcessorOrder, string>, fulfil: Result<string, string>)
    : (s: Handled<SettlementResponse>)
    ensures |s.calls| >= 1 && s.calls[0] == GetOrderById(req.tid)
    ensures getOrder.Err? ==>
      && s.calls == [GetOrderById(req.tid)]
      && s.outcome == Err(ResolverError("Get order by ID error using Digital River Order ID " + Show(req.tid),
                                        Some(getOrder.error)))
    ensures getOrder.Ok? ==>
      && |s.calls| == 2
      && s.calls[1] == FulfillOrCancelOrder(FulfillmentPayload(getOrder.value.id, SettlementItems(getOrder.value.items)))
    ensures s.outcome.Ok? <==> getOrder.Ok? && fulfil.Ok?
    ensures getOrder.Ok? && fulfil.Err? ==>
      s.outcome == Err(ResolverError("Settlement error for Digital River Order ID " + getOrder.value.id, Some(fulfil.error)))
    ensures s.outcome.Ok? ==>
      && s.outcome.value.settleId == fulfil.value
      && s.outcome.value.paymentId == req.paymentId
      && s.outcome.value.requestId == req.requestId
      && s.outcome.value.value == req.value
  {
    var trace := [GetOrderById(req.tid)];
    match getOrder
    case Err(e) =>
      Traced(Err(ResolverError("Get order by ID error using Digital River Order ID " + Show(req.tid), Some(e))), trace)
    case Ok(order) =>
      var payload := FulfillmentPayload(order.id, SettlementItems(order.items));
      var trace := trace + [FulfillOrCancelOrder(payload)];
      match fulfil
      case Err(e) => Traced(Err(ResolverError("Settlement error for Digital River Order ID " + order.id, Some(e))), trace)
      case Ok(settleId) =>
        Traced(Ok(SettlementResponse(settleId, "Successfully settled Digital River Order ID " + order.id,
          req.paymentId, req.value, req.requestId)), trace)
  }

  /** Settlement never falls back to the authorization id, unlike refund and cancellation. */
  lemma SettleIgnoresAuthorizationId(req: SettlementRequest, other: Option<string>,
                                     getOrder: Result<ProcessorOrder, string>, fulfil: Result<string, string>)
    ensures Settle(req, getOrder, fulfil) == Settle(req.(authorizationId := other), getOrder, fulfil)
  {
  }

  /** The refund handler: the requested value, in the order's currency. */
  function Refund(req: RefundRequest, getOrder: Result<ProcessorOrder, string>, refund: Result<string, string>)
    : (s: Handled<RefundResponse>)
    ensures |s.calls| >= 1 && s.calls[0] == GetOrderById(if Truthy(req.tid) then req.tid else req.authorizationId)
    ensures getOrder.Err? ==>
      && |s.calls| == 1
      && s.outcome.Err? && s.outcome.error.ResolverError? && s.outcome.error.cause == Some(getOrder.error)
    ensures getOrder.Ok? ==>
      && |s.calls| == 2
      && s.calls[1] == RefundOrder(RefundPayload(getOrder.value.id, getOrder.value.currency, req.value))
    ensures s.outcome.Ok? <==> getOrder.Ok? && refund.Ok?
    ensures getOrder.Ok? && refund.Err? ==>
      s.outcome == Err(ResolverError("Refund failure for Digital River Order ID " + getOrder.value.id, Some(refund.error)))
    ensures s.outcome.Ok? ==>
      && s.outcome.value.refundId == refund.value
      && s.outcome.value.paymentId == req.paymentId
      && s.outcome.value.requestId == req.requestId
      && s.outcome.value.value == req.value
  {
    var orderRef := Or(req.tid, req.authorizationId);
    var trace := [GetOrderById(orderRef)];
    match getOrder
    case Err(e) =>
      Traced(Err(ResolverError("Get order by ID error using Digital River Order ID " + Show(orderRef), Some(e))), trace)
    case Ok(order) =>
      var payload := RefundPayload(order.id, order.currency, req.value);
      var trace := trace + [RefundOrder(payload)];
      match refund
      case Err(e) => Traced(Err(ResolverError("Refund failure for Digital River Order ID " + order.id, Some(e))), trace)
      case Ok(refundId) =>
        Traced(Ok(RefundResponse(refundId, "Successfully refunded Digital River Order ID " + order.id,
          req.paymentId, req.requestId, req.value)), trace)
  }

  /** The cancellation handler. */
  function Cancel(req: CancellationRequest, getOrder: Result<ProcessorOrder, string>, cancel: Result<string, string>)
    : (s: Handled<CancellationResponse>)
    ensures |s.calls| >= 1 && s.calls[0] == GetOrderById(if Truthy(req.tid) then req.tid else req.authorizationId)
    ensures getOrder.Err? ==>
      && |s.calls| == 1
      && s.outcome.Err? && s.outcome.error.ResolverError? && s.outcome.error.cause == Some(getOrder.error)
    ensures getOrder.Ok? ==>
      && |s.calls| == 2
      && s.calls[1] == FulfillOrCancelOrder(FulfillmentPayload(getOrder.value.id, CancellationItems(getOrder.value.items)))
    ensures s.outcome.Ok? <==> getOrder.Ok? && cancel.Ok?
    ensures getOrder.Ok? && cancel.Err? ==>
      s.outcome == Err(ResolverError("Cancel order error for Digital River Order ID " + getOrder.value.id, Some(cancel.error)))
    ensures s.outcome.Ok? ==>
      && s.outcome.value.cancellationId == cancel.value
      && s.outcome.value.transactionId == req.transactionId
      && s.outcome.value.paymentId == req.paymentId
      && s.outcome.value.requestId == req.requestId
  {
    var orderRef := Or(req.tid, req.authorizationId);
    var trace := [GetOrderById(orderRef)];
    match getOrder
    case Err(e) =>
      Traced(Err(ResolverError("Get order by ID error using Digital River Order ID " + Show(orderRef), Some(e))), trace)
    case Ok(order) =>
      var payload := FulfillmentPayload(order.id, CancellationItems(order.items));
      var trace := trace + [FulfillOrCancelOrder(payload)];
      match cancel
      case Err(e) => Traced(Err(ResolverError("Cancel order error for Digital River Order ID " + order.id, Some(e))), trace)
      case Ok(cancellationId) =>
        Traced(Ok(CancellationResponse(cancellationId, "Successfully cancelled Digital River Order ID ",
          req.transactionId, req.paymentId, req.requestId)), trace)
  }

  /** Settlement and cancellation of the same order touch the same lines with the same quantities. */
  lemma CancellationMirrorsSettlement(items: seq<OrderItem>)
    ensures |CancellationItems(items)| == |SettlementItems(items)|
    ensures forall i :: 0 <= i < |items| ==>
      CancellationItems(items)[i].itemId == SettlementItems(items)[i].itemId &&
      CancellationItems(items)[i].cancelQuantity == SettlementItems(items)[i].quantity
  {
  }
}

=== FILE: shapes.dfy ===
/**
 * Payload shapes exchanged with the payment processor (Digital River) and the
 * commerce platform (VTEX), after node/global.d.ts, and the error taxonomy of
 * the handlers. Fields the handlers never read or write are left out.
 */
module Shapes {
  import opened Wrappers
  import opened JsText

  /** The `applicationId` every checkout payload carries. */
  const ApplicationId := "VTEX"

  /** The totalizer / total id under which the platform reports the shipping cost. */
  const ShippingTotalId := "Shipping"

  /** Locale and currency of a checkout whose order form names none. */
  const DefaultLocale := "en_US"
  const DefaultCurrency := "USD"

  // ---------------------------------------------------------------------------
  // Checkout payloads (DRCheckoutPayload and its parts)
  // ---------------------------------------------------------------------------

  /**
   * A checkout item's discount. The source type has `amountOff` and an
   * optional `percentOff`, but the handlers only ever build one of the two.
   */
  datatype Discount =
    | AmountOff(amountOff: real, quantity: int)
    | PercentOff(percentOff: real, quantity: int)
      /** An amount spread over a zero quantity: `amountOff` is Infinity, serialised as null. */
    | UnboundedAmountOff(quantity: int)

  datatype CheckoutItem = CheckoutItem(
    skuId: string,
    quantity: int,
    price: real,
    discount: Option<Discount>)

  datatype CheckoutAddress = CheckoutAddress(
    line1: string,
    line2: string,
    city: string,
    postalCode: string,
    state: string,
    country: string)

  datatype ShipTo = ShipTo(name: string, phone: string, address: CheckoutAddress)

  datatype ShippingChoice = ShippingChoice(amount: real, description: string, serviceLevel: string)

  datatype CheckoutPayload = CheckoutPayload(
    applicationId: string,
    currency: string,
    taxInclusive: bool,
    email: string,
    locale: string,
    browserIp: Option<string>,
    shipFrom: CheckoutAddress,
    shipTo: ShipTo,
    items: seq<CheckoutItem>,
    shippingChoice: ShippingChoice)

  /** What the processor answers to a created checkout, as far as the handlers read it. */
  datatype CreatedCheckout = CreatedCheckout(id: string, paymentSessionId: string)

  // ---------------------------------------------------------------------------
  // Platform order form (the parts read by the checkout and tax handlers)
  // ---------------------------------------------------------------------------

  datatype PriceTag = PriceTag(name: string, value: real, isPercentual: bool)

  /** An order-form line item; `price` is in minor currency units. */
  datatype OrderFormItem = OrderFormItem(id: string, quantity: int, price: real, priceTags: seq<PriceTag>)

  datatype Totalizer = Totalizer(id: string, value: real)

  /** `shippingData.address`. */
  datatype PostalAddress = PostalAddress(
    street: Option<string>,
    complement: Option<string>,
    city: Option<string>,
    state: Option<string>,
    postalCode: Option<string>,
    country: Option<string>)

  /** `clientProfileData`. */
  datatype ClientProfile = ClientProfile(
    firstName: Option<string>,
    lastName: Option<string>,
    email: Option<string>,
    phone: Option<string>)

  /** `clientPreferencesData`. */
  datatype ClientPreferences = ClientPreferences(locale: Option<string>)

  datatype OrderForm = OrderForm(
    items: seq<OrderFormItem>,
    totalizers: seq<Totalizer>,
    shippingAddress: Option<PostalAddress>,
    clientProfile: Option<ClientProfile>,
    clientPreferences: Option<ClientPreferences>,
    currencyCode: Option<string>)

  // ---------------------------------------------------------------------------
  // Processor orders (DROrderResponse, DRFulfillmentPayload, DRRefundPayload)
  // ---------------------------------------------------------------------------

  datatype OrderItem = OrderItem(id: string, quantity: int)

  datatype ProcessorOrder = ProcessorOrder(id: string, state: string, currency: string, items: seq<OrderItem>)

  /** One line of a fulfilment request: a settlement sets `quantity`, a cancellation `cancelQuantity`. */
  datatype FulfillmentItem = FulfillmentItem(itemId: string, quantity: Option<int>, cancelQuantity: Option<int>)

  datatype FulfillmentPayload = FulfillmentPayload(orderId: string, items: seq<FulfillmentItem>)

  datatype RefundPayload = RefundPayload(orderId: string, currency: string, amount: real)

  // ---------------------------------------------------------------------------
  // Errors a handler throws
  // ---------------------------------------------------------------------------

  datatype Error =
    | AuthenticationError(message: string)
    | UserInputError(message: string)
      /** `new ResolverError(...)`, with the underlying call failure when there is one. */
    | ResolverError(message: string, cause: Option<string>)
      /** `new Error(message)`. */
    | PlainError(message: string)
      /** A JavaScript runtime TypeError (reading a property of `undefined`). */
    | TypeError(message: string)
      /** An external call's rejection, passed through without being caught. */
    | Propagated(failure: string)

  /**
   * A three-letter country code as the two-letter converter turns it, or ""
   * when the code is absent or empty: the converter is never consulted then.
   */
  function ConvertedCountry(country: Option<string>, iso3To2: string -> string): (code: string)
    ensures !Truthy(country) ==> code == ""
    ensures Truthy(country) ==> code == iso3To2(country.value)
  {
    if Truthy(country) then iso3To2(country.value) else ""
  }

  // ---------------------------------------------------------------------------
  // Call traces
  // ---------------------------------------------------------------------------

  /** A handler's outcome together with the external calls it made, in the order made. */
  datatype Traced<T, C> = Traced(outcome: Result<T, Error>, calls: seq<C>)

  /** The platform and processor calls of the storefront checkout routes and the tax webhook. */
  datatype CheckoutCall =
    | GetOrderForm(orderFormId: string)
    | GetDock(dockId: Option<string>)
    | CreateCheckout(payload: CheckoutPayload)
    | SetCustomFields(orderFormId: string, checkoutId: string, paymentSessionId: string)
    | UpdateCheckoutWithSource(checkoutId: string, sourceId: string)

  /** First value of the totalizer list under `id` (`list.find(t => t.id === id)?.value`). */
  function FindTotal(totals: seq<Totalizer>, id: string): (v: Option<real>)
    ensures v.None? <==> forall k :: 0 <= k < |totals| ==> totals[k].id != id
    ensures v.Some? ==> exists k :: 0 <= k < |totals| && totals[k].id == id && totals[k].value == v.value &&
                                    forall j :: 0 <= j < k ==> totals[j].id != id
  {
    if |totals| == 0 then None
    else if totals[0].id == id then Some(totals[0].value)
    else
      var v := FindTotal(totals[1..], id);
      assert forall k :: 1 <= k < |totals| ==> totals[1..][k - 1] == totals[k];
      v
  }
}

=== FILE: tax.dfy ===
/**
 * The tax-calculation webhook of node/middlewares/tax.ts: it authenticates
 * the platform, builds a tax-exclusive checkout from the request's items and
 * the first item's dock, and decomposes the processor's quote into an ordered
 * per-item tax list, with the shipping tax split evenly and floored to cents.
 */
module Tax {
  import opened Wrappers
  import opened JsText
  import opened Shapes

  const UnauthorizedMessage := "Unauthorized application!"
  const DockMisconfiguration := "dock-address-misconfiguration"

  /** `COUNTRIES_LANGUAGES` of node/constants.ts: locales keyed by three-letter country codes. */
  const CountriesLanguages: map<string, string> := map[
    "BRA" := "pt_BR",
    "ESP" := "es_ES",
    "FRA" := "fr_FR",
    "BEL" := "fr_BE",
    "DEU" := "de_DE",
    "AUT" := "de_AT",
    "DNK" := "da_DK",
    "FIN" := "fi_FI",
    "IRL" := "en_IE",
    "ITA" := "it_IT",
    "NLD" := "nl_NL",
    "SWE" := "sv_SE",
    "GBR" := "en_GB"
  ]

  /** The tax components an item's quote is decomposed into. */
  datatype Component = Tax | ShippingTax | ImporterTax | Duties | Fees | FeeTax

  /** The components in the order they are listed for an item. */
  const TaxOrder: seq<Component> := [Tax, ShippingTax, ImporterTax, Duties, Fees, FeeTax]

  /** The name under which a component appears in the response. */
  function Name(c: Component): string {
    match c
    case Tax => "TAX"
    case ShippingTax => "SHIPPING TAX"
    case ImporterTax => "IMPORTER TAX"
    case Duties => "DUTIES"
    case Fees => "FEES"
    case FeeTax => "FEE TAX"
  }

  // ---------------------------------------------------------------------------
  // Request, dock, quote and response shapes
  // ---------------------------------------------------------------------------

  /** A line of the tax request (OrderTaxItem); prices are already in major units. */
  datatype TaxItem = TaxItem(id: string, itemPrice: real, quantity: int, discountPrice: Option<real>, dockId: string)

  datatype TaxClient = TaxClient(email: string)

  /** The tax request (CheckoutRequest); `shippingCountry` is `shippingDestination.country`. */
  datatype TaxRequest = TaxRequest(
    orderFormId: string,
    items: seq<TaxItem>,
    clientData: Option<TaxClient>,
    shippingCountry: Option<string>,
    totals: seq<Totalizer>)

  datatype DockAddress = DockAddress(
    street: Option<string>,
    number: Option<string>,
    complement: Option<string>,
    city: Option<string>,
    state: Option<string>,
    postalCode: Option<string>,
    countryAcronym: Option<string>)

  datatype Dock = Dock(address: Option<DockAddress>)

  /** An item of the processor's checkout answer, with its tax components. */
  datatype QuotedItem = QuotedItem(
    skuId: string,
    taxRate: real,
    taxAmount: real,
    importerTax: real,
    duties: real,
    feesAmount: real,
    feesTax: real)

  /** The processor's checkout answer; `shippingTax` is `shippingChoice.taxAmount`. */
  datatype QuotedCheckout = QuotedCheckout(id: string, paymentSessionId: string, items: seq<QuotedItem>, shippingTax: real)

  /** One entry of an item's tax list, sent under the name of its component. */
  datatype TaxLine = TaxLine(component: Component, rate: Option<real>, value: real) {
    function name(): string {
      Name(component)
    }
  }

  datatype ItemTaxResponse = ItemTaxResponse(id: string, taxes: seq<TaxLine>)

  datatype Hook = Hook(major: int, url: string)

  datatype TaxResponse = TaxResponse(itemTaxResponse: seq<ItemTaxResponse>, hooks: seq<Hook>)

  /** What each external call of the handler answers, should it be made. */
  datatype TaxEnv = TaxEnv(
    orderForm: Result<Option<OrderForm>, string>,
    dock: Result<Dock, string>,
    checkout: Result<QuotedCheckout, string>,
    customFields: Result<(), string>)

  type TaxResult = Traced<TaxResponse, CheckoutCall>

  // ---------------------------------------------------------------------------
  // Locale
  // ---------------------------------------------------------------------------

  /** The checkout locale: the table entry for the converted country, `en_US` otherwise. */
  function TaxLocale(shippingCountry: string): (locale: string)
    ensures locale == DefaultLocale || locale in CountriesLanguages.Values
    ensures shippingCountry !in CountriesLanguages ==> locale == DefaultLocale
    ensures shippingCountry in CountriesLanguages ==> locale == CountriesLanguages[shippingCountry]
  {
    if shippingCountry != "" && shippingCountry in CountriesLanguages then CountriesLanguages[shippingCountry]
    else DefaultLocale
  }

  /**
   * The table is keyed by three-letter codes, but it is consulted with the
   * converted code: any code that is not three characters long gets `en_US`.
   */
  lemma TaxLocaleDefaultsUnlessThreeLetters(shippingCountry: string)
    requires |shippingCountry| != 3
    ensures TaxLocale(shippingCountry) == DefaultLocale
  {
    assert forall k :: k in CountriesLanguages ==> |k| == 3;
  }

  // ---------------------------------------------------------------------------
  // Items, dock and payload
  // ---------------------------------------------------------------------------

  /** A tax-request line as a checkout item: price unchanged, amount discount only when non-zero. */
  function TranslateTaxItem(item: TaxItem): (c: CheckoutItem)
    ensures c.skuId == item.id && c.quantity == item.quantity && c.price == item.itemPrice
    ensures c.discount.Some? <==> item.discountPrice.Some? && item.discountPrice.value != 0.0
    ensures c.discount.Some? ==> c.discount.value == AmountOff(item.discountPrice.value, item.quantity)
  {
    var discount :=
      if item.discountPrice.Some? && item.discountPrice.value != 0.0
      then Some(AmountOff(item.discountPrice.value, item.quantity))
      else None;
    CheckoutItem(item.id, item.quantity, item.itemPrice, discount)
  }

  /** The dock of the first request line, the only one consulted (undefined without lines). */
  function FirstDockId(items: seq<TaxItem>): Option<string> {
    if |items| == 0 then None else Some(items[0].dockId)
  }

  /** The dock has a street, city, state, postal code and country acronym. */
  predicate DockComplete(dock: Dock) {
    && dock.address.Some?
    && Truthy(dock.address.value.street)
    && Truthy(dock.address.value.city)
    && Truthy(dock.address.value.state)
    && Truthy(dock.address.value.postalCode)
    && Truthy(dock.address.value.countryAcronym)
  }

  /** The ship-from address of a complete dock. */
  function ShipFromAddress(dock: Dock, iso3To2: string -> string): (a: CheckoutAddress)
    requires DockComplete(dock)
    ensures var addr := dock.address.value;
      && a.city == addr.city.value && a.state == addr.state.value && a.postalCode == addr.postalCode.value
      && a.country == iso3To2(addr.countryAcronym.value)
      && a.line2 == addr.complement.GetOr("")
    // the street closes line 1, after the number or, when there is none, after "undefined "
    ensures var addr := dock.address.value;
      && |addr.street.value| <= |a.line1|
      && a.line1[|a.line1| - |addr.street.value|..] == addr.street.value
      && a.line1[..|a.line1| - |addr.street.value|] == (if addr.number.Some? then addr.number.value else "undefined ")
  {
    var addr := dock.address.value;
    // `${number ?? `${number} `}${street}`: a missing number renders as "undefined "
    var line1 := (if addr.number.Some? then addr.number.value else "undefined ") + addr.street.value;
    CheckoutAddress(line1, addr.complement.GetOr(""), addr.city.value, addr.postalCode.value, addr.state.value,
      iso3To2(addr.countryAcronym.value))
  }

  /**
   * The tax-exclusive checkout payload, or the TypeError the source raises
   * when the client data, the order form, its profile or its shipping address
   * is missing.
   */
  function TaxCheckoutPayload(req: TaxRequest, form: Option<OrderForm>, dock: Dock, iso3To2: string -> string)
    : (r: Result<CheckoutPayload, Error>)
    requires DockComplete(dock)
    ensures r.Ok? <==>
      req.clientData.Some? && form.Some? && form.value.clientProfile.Some? && form.value.shippingAddress.Some?
    ensures r.Err? ==> r.error.TypeError?
    ensures r.Ok? ==>
      var p := r.value;
      && |p.items| == |req.items|
      && (forall i :: 0 <= i < |req.items| ==> p.items[i] == TranslateTaxItem(req.items[i]))
      && !p.taxInclusive
      && p.applicationId == ApplicationId
      && p.email == req.clientData.value.email
      && p.locale == TaxLocale(ConvertedCountry(req.shippingCountry, iso3To2))
      && p.shipFrom == ShipFromAddress(dock, iso3To2)
      && p.shipTo.address.country == ConvertedCountry(req.shippingCountry, iso3To2)
      && p.shippingChoice.amount == FindTotal(req.totals, ShippingTotalId).GetOr(0.0)
  {
    if req.clientData.None? then Err(TypeError("Cannot read properties of null (reading 'email')"))
    else if form.None? then Err(TypeError("Cannot read properties of undefined (reading 'clientProfileData')"))
    else if form.value.clientProfile.None? then Err(TypeError("Cannot read properties of undefined (reading 'firstName')"))
    else if form.value.shippingAddress.None? then Err(TypeError("Cannot read properties of undefined (reading 'address')"))
    else
      var profile := form.value.clientProfile.value;
      var shipping := form.value.shippingAddress.value;
      var country := ConvertedCountry(req.shippingCountry, iso3To2);
      var shipTo := ShipTo(
        Show(profile.firstName) + " " + Show(profile.lastName),
        profile.phone.GetOr(""),
        CheckoutAddress(shipping.street.GetOr(""), shipping.complement.GetOr(""), shipping.city.GetOr(""),
          shipping.postalCode.GetOr(""), shipping.state.GetOr(""), country));
      var items := seq(|req.items|, i requires 0 <= i < |req.items| => TranslateTaxItem(req.items[i]));
      Ok(CheckoutPayload(
        ApplicationId,
        form.value.currencyCode.GetOr(DefaultCurrency),
        false,
        req.clientData.value.email,
        TaxLocale(country),
        None,
        ShipFromAddress(dock, iso3To2),
        shipTo,
        items,
        ShippingChoice(FindTotal(req.totals, ShippingTotalId).GetOr(0.0), "", "")))
  }

  // ---------------------------------------------------------------------------
  // Quote decomposition
  // ---------------------------------------------------------------------------

  /**
   * Each item's share of the shipping tax: the even split floored to cents,
   * or 0 when there is no positive shipping tax. The remainder is dropped.
   */
  function ShippingShare(shippingTax: real, n: nat): (share: real)
    requires n > 0
    ensures shippingTax <= 0.0 ==> share == 0.0
    ensures shippingTax > 0.0 ==>
      && 0.0 <= share
      && share * n as real <= shippingTax
      && shippingTax - share * n as real < n as real * 0.01
    ensures (share * 100.0).Floor as real == share * 100.0
  {
    if shippingTax > 0.0 then
      var m := n as real;
      var x := shippingTax / m * 100.0;
      var f := x.Floor as real;
      FlooredSplit(shippingTax, m, f);
      f / 100.0
    else 0.0
  }

  /** Flooring the per-share cents loses less than one cent per share. */
  lemma FlooredSplit(t: real, m: real, f: real)
    requires m > 0.0 && f == (t / m * 100.0).Floor as real
    ensures f / 100.0 * m <= t
    ensures t - f / 100.0 * m < m * 0.01
    ensures (f / 100.0 * 100.0).Floor as real == f / 100.0 * 100.0
  {
    var x := t / m * 100.0;
    assert f <= x < f + 1.0;
    assert x * m == t * 100.0;
    calc {
      f / 100.0 * m;
      == (f * m) / 100.0;
      <= { assert f * m <= x * m; } (x * m) / 100.0;
      == t;
    }
    calc {
      t;
      == (x * m) / 100.0;
      < { assert x * m < (f + 1.0) * m; } ((f + 1.0) * m) / 100.0;
      == f / 100.0 * m + m * 0.01;
    }
  }

  /** One unit of shipping tax over three items gives each 0.33; one cent is dropped. */
  lemma ShippingShareExample()
    ensures ShippingShare(1.0, 3) == 0.33
  {
    var x := 1.0 / 3.0 * 100.0;
    assert 33.0 <= x < 34.0;
    assert x.Floor == 33;
  }

  /** Position of a component in the listing order. */
  function Rank(c: Component): nat {
    match c
    case Tax => 0
    case ShippingTax => 1
    case ImporterTax => 2
    case Duties => 3
    case Fees => 4
    case FeeTax => 5
  }

  lemma RankOfOrder()
    ensures forall k :: 0 <= k < |TaxOrder| ==> Rank(TaxOrder[k]) == k
    ensures forall c :: Rank(c) < |TaxOrder| && TaxOrder[Rank(c)] == c
  {
  }

  /** Distinct components appear under distinct names, so a response line names its component unambiguously. */
  lemma NamesDistinct(c: Component, d: Component)
    ensures Name(c) == Name(d) <==> c == d
    ensures TaxLine(c, None, 0.0).name() == TaxLine(d, None, 0.0).name() <==> c == d
  {
  }

  /** Some line of `taxes` is the component `c`. */
  predicate Lists(taxes: seq<TaxLine>, c: Component) {
    exists t :: t in taxes && t.component == c
  }

  /**
   * Whether component `c` is listed for an item: its amount is positive (the
   * shipping share non-zero), and the fee tax only together with fees.
   */
  predicate Present(item: QuotedItem, share: real, c: Component) {
    match c
    case Tax => item.taxAmount > 0.0
    case ShippingTax => share != 0.0
    case ImporterTax => item.importerTax > 0.0
    case Duties => item.duties > 0.0
    case Fees => item.feesAmount > 0.0
    case FeeTax => item.feesAmount > 0.0 && item.feesTax > 0.0
  }

  /** The amount the quote gives for component `c`, with `share` as the shipping part. */
  function ComponentValue(item: QuotedItem, share: real, c: Component): real {
    match c
    case Tax => item.taxAmount
    case ShippingTax => share
    case ImporterTax => item.importerTax
    case Duties => item.duties
    case Fees => item.feesAmount
    case FeeTax => item.feesTax
  }

  /** The line of component `c`; only `TAX` carries a rate. */
  function Line(item: QuotedItem, share: real, c: Component): TaxLine {
    TaxLine(c, if c == Tax then Some(item.taxRate) else None, ComponentValue(item, share, c))
  }

  /** The components of `taxes` strictly follow the listing order. */
  predicate Ranked(taxes: seq<TaxLine>) {
    forall i, j :: 0 <= i < j < |taxes| ==> Rank(taxes[i].component) < Rank(taxes[j].component)
  }

  /** In a ranked list, a line whose rank is one more than another's comes right after it. */
  lemma NextInRank(taxes: seq<TaxLine>, a: nat, b: nat)
    requires Ranked(taxes) && a < |taxes| && b < |taxes|
    requires Rank(taxes[b].component) == Rank(taxes[a].component) + 1
    ensures b == a + 1
  {
    assert a < b;
    assert Rank(taxes[a].component) < Rank(taxes[a + 1].component);
  }

  /** The present components from position `k` of the listing order on, in that order. */
  function Components(item: QuotedItem, share: real, k: nat): (taxes: seq<TaxLine>)
    requires k <= |TaxOrder|
    ensures forall i :: 0 <= i < |taxes| ==> k <= Rank(taxes[i].component)
    ensures forall i, j :: 0 <= i < j < |taxes| ==> Rank(taxes[i].component) < Rank(taxes[j].component)
    ensures forall i :: 0 <= i < |taxes| ==>
      taxes[i] == Line(item, share, taxes[i].component) && Present(item, share, taxes[i].component)
    decreases |TaxOrder| - k
  {
    if k == |TaxOrder| then []
    else
      var rest := Components(item, share, k + 1);
      var c := TaxOrder[k];
      RankOfOrder();
      if Present(item, share, c) then
        var taxes := [Line(item, share, c)] + rest;
        assert forall i :: 1 <= i < |taxes| ==> taxes[i] == rest[i - 1];
        taxes
      else rest
  }

  /** Every present component from position `k` of the listing order on is listed. */
  lemma {:induction false} ComponentsComplete(item: QuotedItem, share: real, k: nat)
    requires k <= |TaxOrder|
    ensures forall c :: Present(item, share, c) && k <= Rank(c) ==> Lists(Components(item, share, k), c)
    decreases |TaxOrder| - k
  {
    if k < |TaxOrder| {
      ComponentsComplete(item, share, k + 1);
      RankOfOrder();
      var rest := Components(item, share, k + 1);
      var c := TaxOrder[k];
      if Present(item, share, c) {
        var line := Line(item, share, c);
        assert Components(item, share, k) == [line] + rest;
        assert line in Components(item, share, k) && line.component == c;
      } else {
        assert Components(item, share, k) == rest;
      }
    }
  }

  /**
   * The ordered tax list of one quoted item: each component exactly when it
   * is present, in the fixed order, with its quoted value, and only `TAX`
   * carrying a rate.
   */
  function ItemTaxes(item: QuotedItem, share: real): (taxes: seq<TaxLine>)
    ensures Ranked(taxes)
    ensures forall i :: 0 <= i < |taxes| ==> taxes[i].value == ComponentValue(item, share, taxes[i].component)
    ensures forall i :: 0 <= i < |taxes| ==>
      (taxes[i].rate.Some? <==> taxes[i].component == Tax) &&
      (taxes[i].rate.Some? ==> taxes[i].rate.value == item.taxRate)
    ensures forall c :: Lists(taxes, c) <==> Present(item, share, c)
  {
    var taxes := Components(item, share, 0);
    ComponentsComplete(item, share, 0);
    assert forall c :: Lists(taxes, c) ==> Present(item, share, c) by {
      forall c | Lists(taxes, c) ensures Present(item, share, c) {
        var t :| t in taxes && t.component == c;
      }
    }
    taxes
  }

  /**
   * In a ranked list where `b` ranks right after `a` and is only listed
   * together with `a`, every `b` line comes immediately after an `a` line.
   */
  lemma ListedRightAfter(taxes: seq<TaxLine>, a: Component, b: Component)
    requires Ranked(taxes) && Rank(b) == Rank(a) + 1
    requires Lists(taxes, b) ==> Lists(taxes, a)
    ensures forall i :: 0 <= i < |taxes| && taxes[i].component == b ==> i > 0 && taxes[i - 1].component == a
  {
    forall i | 0 <= i < |taxes| && taxes[i].component == b
      ensures i > 0 && taxes[i - 1].component == a
    {
      assert taxes[i] in taxes;
      var t :| t in taxes && t.component == a;
      var j :| 0 <= j < |taxes| && taxes[j] == t;
      NextInRank(taxes, j, i);
    }
  }

  /** A `FEE TAX` line always comes right after the `FEES` line. */
  lemma FeeTaxFollowsFees(item: QuotedItem, share: real)
    ensures var taxes := ItemTaxes(item, share);
      forall i :: 0 <= i < |taxes| && taxes[i].component == FeeTax ==> i > 0 && taxes[i - 1].component == Fees
  {
    var taxes := ItemTaxes(item, share);
    assert Lists(taxes, FeeTax) ==> Present(item, share, FeeTax);
    assert Present(item, share, FeeTax) ==> Present(item, share, Fees);
    ListedRightAfter(taxes, Fees, FeeTax);
  }

  /** The shipping-tax share every item of the quote receives. */
  function QuoteShare(quote: QuotedCheckout): (share: real)
    ensures quote.shippingTax <= 0.0 ==> share == 0.0
    ensures |quote.items| > 0 && quote.shippingTax > 0.0 ==>
      && 0.0 <= share
      && share * |quote.items| as real <= quote.shippingTax
      && quote.shippingTax - share * |quote.items| as real < |quote.items| as real * 0.01
    ensures (share * 100.0).Floor as real == share * 100.0
  {
    if |quote.items| == 0 then 0.0 else ShippingShare(quote.shippingTax, |quote.items|)
  }

  /** The tax-hub response: one entry per quoted item, in order, keyed by its sku id. */
  function TaxBreakdown(quote: QuotedCheckout): (resp: TaxResponse)
    ensures |resp.itemTaxResponse| == |quote.items|
    ensures forall i :: 0 <= i < |quote.items| ==>
      && resp.itemTaxResponse[i].id == quote.items[i].skuId
      && resp.itemTaxResponse[i].taxes == ItemTaxes(quote.items[i], QuoteShare(quote))
    ensures resp.hooks == []
  {
    var share := QuoteShare(quote);
    TaxResponse(
      seq(|quote.items|, i requires 0 <= i < |quote.items| => ItemTaxResponse(quote.items[i].skuId, ItemTaxes(quote.items[i], share))),
      [])
  }

  // ---------------------------------------------------------------------------
  // Handler
  // ---------------------------------------------------------------------------

  /** The webhook's shared secret matches the connector's processor token. */
  predicate Authorized(authorization: Option<string>, token: string) {
    Truthy(authorization) && authorization.value == token
  }

  /** Create the checkout, store its ids on the order form, and decompose its quote. */
  function QuoteTax(req: TaxRequest, form: Option<OrderForm>, dock: Dock, iso3To2: string -> string, env: TaxEnv)
    : (r: TaxResult)
    requires DockComplete(dock)
    ensures |r.calls| <= 2
    ensures r.calls == [] <==> TaxCheckoutPayload(req, form, dock, iso3To2).Err?
    ensures r.calls != [] ==> r.calls[0] == CreateCheckout(TaxCheckoutPayload(req, form, dock, iso3To2).value)
    ensures |r.calls| == 2 <==> r.calls != [] && env.checkout.Ok?
    ensures |r.calls| == 2 ==>
      r.calls[1] == SetCustomFields(req.orderFormId, env.checkout.value.id, env.checkout.value.paymentSessionId)
    ensures |r.calls| == 1 ==> r.outcome == Err(ResolverError("Checkout creation failed", Some(env.checkout.error)))
    ensures |r.calls| == 2 && env.customFields.Err? ==>
      r.outcome == Err(ResolverError("OrderForm update failed", Some(env.customFields.error)))
    ensures r.outcome.Ok? <==> |r.calls| == 2 && env.customFields.Ok?
    ensures r.outcome.Ok? ==> r.outcome.value == TaxBreakdown(env.checkout.value)
  {
    match TaxCheckoutPayload(req, form, dock, iso3To2)
    case Err(e) => Traced(Err(e), [])
    case Ok(payload) =>
      var trace := [CreateCheckout(payload)];
      match env.checkout
      case Err(e) => Traced(Err(ResolverError("Checkout creation failed", Some(e))), trace)
      case Ok(quote) =>
        var trace := trace + [SetCustomFields(req.orderFormId, quote.id, quote.paymentSessionId)];
        match env.customFields
        case Err(e) => Traced(Err(ResolverError("OrderForm update failed", Some(e))), trace)
        case Ok(_) => Traced(Ok(TaxBreakdown(quote)), trace)
  }

  /** Fetch the first line's dock, check its address, then quote. */
  function QuoteFromDock(req: TaxRequest, form: Option<OrderForm>, iso3To2: string -> string, env: TaxEnv)
    : (r: TaxResult)
    ensures 1 <= |r.calls| <= 3 && r.calls[0] == GetDock(FirstDockId(req.items))
    ensures env.dock.Err? ==> r == Traced(Err(Propagated(env.dock.error)), r.calls[..1])
    ensures env.dock.Ok? && !DockComplete(env.dock.value) ==>
      |r.calls| == 1 && r.outcome == Err(PlainError(DockMisconfiguration))
    ensures |r.calls| >= 2 ==>
      && env.dock.Ok? && DockComplete(env.dock.value)
      && var payload := TaxCheckoutPayload(req, form, env.dock.value, iso3To2);
      && payload.Ok?
      && r.calls[1] == CreateCheckout(payload.value)
    ensures |r.calls| == 2 ==>
      env.checkout.Err? && r.outcome == Err(ResolverError("Checkout creation failed", Some(env.checkout.error)))
    ensures r.outcome.Ok? ==>
      && |r.calls| == 3 && env.checkout.Ok? && env.customFields.Ok?
      && r.outcome.value == TaxBreakdown(env.checkout.value)
    // a complete dock always goes on to the quote
    ensures env.dock.Ok? && DockComplete(env.dock.value) ==>
      var q := QuoteTax(req, form, env.dock.value, iso3To2, env);
      r.calls == [r.calls[0]] + q.calls && r.outcome == q.outcome
  {
    var trace := [GetDock(FirstDockId(req.items))];
    match env.dock
    case Err(e) => Traced(Err(Propagated(e)), trace)
    case Ok(dock) =>
      if !DockComplete(dock) then Traced(Err(PlainError(DockMisconfiguration)), trace)
      else
        var quoted := QuoteTax(req, form, dock, iso3To2, env);
        Traced(quoted.outcome, trace + quoted.calls)
  }

  /** The tax-calculation webhook handler. */
  function DigitalRiverOrderTaxHandler(
    authorization: Option<string>,
    token: string,
    req: TaxRequest,
    iso3To2: string -> string,
    env: TaxEnv)
    : (r: TaxResult)
    // an unauthenticated call is refused before anything is called
    ensures r.calls == [] <==> !Authorized(authorization, token)
    ensures !Authorized(authorization, token) ==> r.outcome == Err(PlainError(UnauthorizedMessage))
    ensures r.calls != [] ==> r.calls[0] == GetOrderForm(req.orderFormId) && |r.calls| <= 4
    ensures r.calls != [] && env.orderForm.Err? ==> r.outcome == Err(Propagated(env.orderForm.error)) && |r.calls| == 1
    // only the first line's dock is fetched
    ensures |r.calls| >= 2 ==> env.orderForm.Ok? && r.calls[1] == GetDock(FirstDockId(req.items))
    // an incomplete dock address aborts before any checkout is created
    ensures |r.calls| >= 2 && env.dock.Ok? && !DockComplete(env.dock.value) ==>
      |r.calls| == 2 && r.outcome == Err(PlainError(DockMisconfiguration))
    ensures |r.calls| >= 3 ==>
      && env.dock.Ok? && DockComplete(env.dock.value)
      && var payload := TaxCheckoutPayload(req, env.orderForm.value, env.dock.value, iso3To2);
      && payload.Ok?
      && r.calls[2] == CreateCheckout(payload.value)
    ensures |r.calls| == 3 ==>
      env.checkout.Err? && r.outcome == Err(ResolverError("Checkout creation failed", Some(env.checkout.error)))
    // the answer decomposes the quote of the checkout the handler created
    ensures r.outcome.Ok? ==>
      && |r.calls| == 4 && env.checkout.Ok? && env.customFields.Ok?
      && r.outcome.value == TaxBreakdown(env.checkout.value)
    // a read order form always goes on to the dock and the quote
    ensures Authorized(authorization, token) && env.orderForm.Ok? ==>
      var q := QuoteFromDock(req, env.orderForm.value, iso3To2, env);
      r.calls == [r.calls[0]] + q.calls && r.outcome == q.outcome
  {
    if !Authorized(authorization, token) then Traced(Err(PlainError(UnauthorizedMessage)), [])
    else
      var trace := [GetOrderForm(req.orderFormId)];
      match env.orderForm
      case Err(e) => Traced(Err(Propagated(e)), trace)
      case Ok(form) =>
        var rest := QuoteFromDock(req, form, iso3To2, env);
        var calls := trace + rest.calls;
        assert forall k :: 0 <= k < |rest.calls| ==> calls[k + 1] == rest.calls[k];
        Traced(rest.outcome, calls)
  }

  /**
   * The shipping tax handed out over a non-empty quote never exceeds the
   * quoted amount and falls short of it by less than one cent per item.
   */
  lemma ShippingTaxDistribution(quote: QuotedCheckout)
    requires |quote.items| > 0 && quote.shippingTax > 0.0
    ensures var resp := TaxBreakdown(quote);
      forall i :: 0 <= i < |resp.itemTaxResponse| ==>
        (Lists(resp.itemTaxResponse[i].taxes, ShippingTax) <==> QuoteShare(quote) != 0.0)
    ensures QuoteShare(quote) * |quote.items| as real <= quote.shippingTax
    ensures quote.shippingTax - QuoteShare(quote) * |quote.items| as real < |quote.items| as real * 0.01
  {
  }
}

=== FILE: wrappers.dfy ===
/** Optional values and call outcomes shared by every handler of the adapter. */
module Wrappers {

  /** A value that may be absent: JavaScript's `undefined` and `null` both read as `None`. */
  datatype Option<+T> = None | Some(value: T) {

    /** The value, or `default` when absent (JavaScript's `??`). */
    function GetOr(default: T): T {
      match this
      case Some(v) => v
      case None => default
    }
  }

  /** The outcome of a computation that may fail: an external call's answer or a handler's result. */
  datatype Result<+T, +E> = Ok(value: T) | Err(error: E)
}
